=== FILE: README.md ===
# Cothread scheduler core, modelled in Dafny

Cothread is a single-threaded cooperative scheduler written in C# for Unity
(`unity3d/Assets/Cothread/Cothread.cs`). Tasks are C# iterators. A task's
`yield return` says where it waits next: a foreign `IAsyncResult`, another
`Cothread`, a `CothreadEvent`, a timer (through `Sleep`, `Wait(ms)` or a
`CothreadTimeout`), or just the next tick. `CothreadHub` keeps:

- the registry `threads`;
- the FIFO ready queue `yields`;
- the timer list `times`, sorted by `WakeTime`;
- the clock `passTime`;
- the enumerator being resumed, `current`.

`Tick` drains the ready queue as it stood at entry, advances the clock and
fires the due timers. `call` resumes one enumerator and classifies what it
yielded. `callIEnumerable` flattens nested iterators into one stream.

The model is a functional state machine:

- `Hub` is an immutable record of the scheduler state.
- Each operation is a pure function from one hub to the next.
- An exception that escapes the hub is an `Outcome.Faulted`.

Enumerators are identities (`Ref`). A task body is a script. Each `Step` is
what one `MoveNext` of the iterator does: a list of effects on the hub, then
what it yields or that it returns. The flattened enumerator is a stack of
frames, and `Advance` is one `MoveNext` of it.

Events are identities as well. A `UserEvent` is one a body was given. A
`Notifier` is the event a Cothread's `ev` getter creates, numbered by how many
of that Cothread's events `Close` has already dropped. A body names an event by
reference (`EventRef`). A reference to a Cothread's `ev` goes through the getter
when the step runs, as `th.ev` does.

| file | module | contents |
|---|---|---|
| `kinds.dfy` | `Kinds` | identities, yielded values, errors, log notes, the host hook type |
| `timer_list.dfy` | `TimerList` | `YieldState`, sorted insertion, the sort used by `addTimeUp` |
| `event_slot.dfy` | `EventSlot` | `CothreadEvent` as a slot plus a waiter list |
| `continuation.dfy` | `Continuation` | task bodies as scripts, frames of the flattened enumerator, size measures |
| `tasks.dfy` | `Tasks` | the `Cothread` record, `IsTimeout`, the `CothreadTimeout` record |
| `scheduler.dfy` | `Scheduler` | the hub state, its invariant, registry and queue primitives, foreign completion, task start |
| `sync.dfy` | `Sync` | event set, clear and wake-up, `Close`, `Join`, timeout start, cancel and fire |
| `flattener.dfy` | `Flattener` | `callIEnumerable`: one `MoveNext` of the flattened enumerator |
| `flat_stream.dfy` | `FlatStream` | an independent stream semantics of plain nested bodies, and its agreement with `Advance` |
| `call.dfy` | `Call` | `call`: resume and dispatch |
| `tick.dfy` | `Ticking` | `Tick`: the bounded drain and the timer phase |
| `wraparound.dfy` | `WrapAround` | the 32-bit clock as written |

`Scheduler.Core` is the invariant every operation keeps:

- the timer list is sorted;
- every Cothread object was created by the hub;
- a Cothread is registered exactly while it is not `Closed`.

`Scheduler.Evolves` is what a step inside one resume keeps:

- the clock stands still;
- the ready queue and the timer list only grow, and new timers are never due before now;
- closed stays closed;
- only new Cothreads join the registry.

## Model

| member | source | states |
|---|---|---|
| TimerList.Insert | unity3d/Assets/Cothread/Cothread.cs:382-383 | inserting into a sorted timer list keeps it sorted, the result holds exactly the old entries plus the new one, and it starts with the new entry or the old head |
| TimerList.SortByWake | unity3d/Assets/Cothread/Cothread.cs:369-383 | the sort orders the timer list by deadline and neither loses nor invents an entry; no order among equal deadlines is promised |
| TimerList.SortedPermutationsAgreeOnDeadlines | unity3d/Assets/Cothread/Cothread.cs:369-383 | any two sorted orderings of the same entries have the same sequence of deadlines, so an unstable sort cannot change when timers come due |
| EventSlot.Add | unity3d/Assets/Cothread/Cothread.cs:585-589 | a waiter is registered if and only if the event is unset; a set event is left unchanged and the answer is false |
| EventSlot.Clear | unity3d/Assets/Cothread/Cothread.cs:591-594 | after Clear the event is unset and has no waiters |
| EventSlot.Get | unity3d/Assets/Cothread/Cothread.cs:623-627 | Get answers the stored value when the event is set, the default otherwise |
| EventSlot.Store | unity3d/Assets/Cothread/Cothread.cs:629-630 | after storing, the event is set to exactly the new value and its waiters are unchanged |
| EventSlot.Preset | unity3d/Assets/Cothread/Cothread.cs:581-583 | an event constructed with a value is set, has no waiters, and is the same as a fresh event after `Set` of that value |
| EventSlot.StoreThenGet | unity3d/Assets/Cothread/Cothread.cs:585-630 | set is sticky: once a value is stored, Get answers it whatever the default, and add refuses new waiters |
| EventSlot.ClearThenAdd | unity3d/Assets/Cothread/Cothread.cs:585-594 | after Clear the event accepts a waiter again and Get answers the default |
| Tasks.IsTimeout | unity3d/Assets/Cothread/Cothread.cs:545-555 | the marker is always cleared; the call throws CothreadTimeoutError exactly when asked to throw and a marker was present; otherwise it answers whether a marker was present |
| Tasks.IsTimeoutConsumesMarker | unity3d/Assets/Cothread/Cothread.cs:545-555 | the marker is consumed once: a second query answers false and throws nothing |
| Scheduler.GetCothread | unity3d/Assets/Cothread/Cothread.cs:176-180 | a Cothread is found exactly when it is registered |
| Scheduler.AddCothread | unity3d/Assets/Cothread/Cothread.cs:323-330 | the enumerator joins the back of the ready queue; a registered Cothread forgets its pending completion; nothing else changes |
| Scheduler.AddCothreads | unity3d/Assets/Cothread/Cothread.cs:332-342 | all the enumerators join the ready queue in order after the old entries; exactly the registered Cothreads in the batch lose their pending completion, every other field of every Cothread and the rest of the hub are kept |
| Scheduler.PopYield | unity3d/Assets/Cothread/Cothread.cs:344-354 | answers null exactly when the queue is empty; otherwise removes and answers the front entry and nothing else changes |
| Scheduler.AddTimeUp | unity3d/Assets/Cothread/Cothread.cs:380-385 | the timer list stays sorted and holds exactly the old entries plus one due at passTime + time; nothing else in the hub changes |
| Scheduler.DelCothread | unity3d/Assets/Cothread/Cothread.cs:300-307 | answers the Cothread that was registered, if any, and removes only its registration |
| Scheduler.AddCallback | unity3d/Assets/Cothread/Cothread.cs:356-367 | throws "yield exist" exactly when the registered task already waits for a foreign completion; changes nothing |
| Scheduler.CallBackAsWritten | unity3d/Assets/Cothread/Cothread.cs:309-321 | as written, a completion for a task no longer registered dereferences null |
| Scheduler.CallBack | unity3d/Assets/Cothread/Cothread.cs:309-321 | a matching completion clears the slot and queues the task once; any other completion only appends a log note and changes nothing else |
| Scheduler.CompletionAfterDeregistrationFaults | unity3d/Assets/Cothread/Cothread.cs:309-321 | a completion arriving after its task was closed makes the callback throw, although the same completion before closing succeeds |
| Scheduler.CompletionAfterDeregistrationIsStale | unity3d/Assets/Cothread/Cothread.cs:309-321 | with the null check supplied, that late completion is logged as stale and changes nothing else |
| Scheduler.CompletionAppliesOnce | unity3d/Assets/Cothread/Cothread.cs:309-321 | delivering the same completion twice readmits the task only once; the replay is stale |
| Scheduler.Register | unity3d/Assets/Cothread/Cothread.cs:189-196 | a fresh Cothread, never seen before, is registered around the routine and is not scheduled |
| Scheduler.StartCoroutine | unity3d/Assets/Cothread/Cothread.cs:198-202 | the new Cothread gets a fresh id, is registered with its body and queued once at the back of the ready queue; the timers, events, tokens and every other Cothread are unchanged |
| Scheduler.StartCoroutineAfter | unity3d/Assets/Cothread/Cothread.cs:204-208 | the new Cothread gets a fresh id and is registered with its body, and the timer list becomes the old one with its entry due ms from now; the ready queue, events, tokens and every other Cothread are unchanged |
| Sync.SetEvent | unity3d/Assets/Cothread/Cothread.cs:629-632 | the value is stored, other events are unchanged, and the event is queued if and only if it has waiters |
| Sync.ClearEvent | unity3d/Assets/Cothread/Cothread.cs:591-594 | the event becomes unset with no waiters, and its waiters are not queued |
| Sync.GetEvent | unity3d/Assets/Cothread/Cothread.cs:623-627 | reads an event's value, or the default when it is unset |
| Sync.AddWaiter | unity3d/Assets/Cothread/Cothread.cs:585-589 | the task becomes the last waiter exactly when the event is unset; otherwise the hub is unchanged |
| Sync.DrainWaiters | unity3d/Assets/Cothread/Cothread.cs:596-603 | every waiter joins the ready queue in waiting order and the list is emptied while the stored value is kept; exactly the registered waiters lose their pending completion, and no other event, Cothread field or hub part changes |
| Sync.EnsureEv | unity3d/Assets/Cothread/Cothread.cs:495-501 | the completion event is created unset on first use and reused afterwards; only the Cothread's "has an event" flag and that event can change |
| Sync.Resolve | unity3d/Assets/Cothread/Cothread.cs:494-501 | a user event is reached as it is; a Cothread's `ev` is reached through the getter, so it exists afterwards and is the identity the getter answers |
| Sync.Close | unity3d/Assets/Cothread/Cothread.cs:521-536 | the first close marks the Cothread closed, deregisters it, sets its completion event (if created) to the Cothread, queuing it when it has waiters, and drops it so the next use of `ev` gets a new identity; closing a closed Cothread changes nothing |
| Sync.CloseIdempotent | unity3d/Assets/Cothread/Cothread.cs:521-536 | closing twice is closing once |
| Sync.CloseDropsEvent | unity3d/Assets/Cothread/Cothread.cs:521-536 | after a close the Cothread's `ev` is a new, unset event, while the dropped one holds the Cothread as its value for its queued waiters |
| Sync.Join | unity3d/Assets/Cothread/Cothread.cs:538-543 | joining a closed Cothread gives no suspension; joining a live one creates its completion event if needed and waits on exactly that event |
| Sync.CurrentCothread | unity3d/Assets/Cothread/Cothread.cs:154-156 | the current enumerator's Cothread is found exactly when it is a registered task |
| Sync.StartToken | unity3d/Assets/Cothread/Cothread.cs:676-684 | the token is un-cancelled, bound to the current task, whose marker is cleared, and armed ms from now, with no other token, event or Cothread touched; outside a task it throws with only the cancel flag reset |
| Sync.CancelToken | unity3d/Assets/Cothread/Cothread.cs:686-693 | the current task's marker is cleared only if it is this token; a fired token asked to throw throws before it is cancelled; otherwise it becomes cancelled; no other token and nothing but markers and this token changes |
| Sync.FireToken | unity3d/Assets/Cothread/Cothread.cs:656-670 | a cancelled token does nothing; a live one records that it fired and, if its task is registered, marks that task, clears its pending completion and queues it; no other token, event or Cothread changes |
| Sync.CheckTimeout | unity3d/Assets/Cothread/Cothread.cs:545-555 | the current task's marker is consumed; the call throws exactly when asked to and a marker was present |
| Sync.CancelThenFireIsInert | unity3d/Assets/Cothread/Cothread.cs:656-693 | a token cancelled without throwing changes nothing when its timer later fires |
| Sync.CancelAfterFiringThrows | unity3d/Assets/Cothread/Cothread.cs:686-693 | cancelling a fired token with throw raises the timeout error to the canceller and leaves the cancel flag as it was |
| Flattener.RunAct | unity3d/Assets/Cothread/Cothread.cs:438-444 | each body effect is the corresponding hub operation (Set, Clear, Close, IsTimeout, the timeout token's Start and Cancel, both StartCoroutine forms); a Set or Clear on a Cothread's `ev` first creates that event through the getter; closing an unknown Cothread changes nothing; a body exception is raised |
| Flattener.RunActs | unity3d/Assets/Cothread/Cothread.cs:438-444 | the effects of one step run in order: the first one's exception abandons the rest, otherwise the rest run from the hub it left |
| Flattener.RunActsAppend | unity3d/Assets/Cothread/Cothread.cs:438-444 | running two sequences of effects back to back is the same as running their concatenation, and an exception in the first means the second never runs |
| Flattener.PullScript | unity3d/Assets/Cothread/Cothread.cs:439-453 | an empty body finishes; otherwise the step's effects run first, an exception in them fails the frame, and only then is the yield instruction taken; the rest of the body weighs less |
| Flattener.PullNext | unity3d/Assets/Cothread/Cothread.cs:439-453 | a plain value is produced with the rest of the body kept; yielding a Cothread's `ev` creates it through the getter first; a nested routine, a Sleep and a Wait descend into their own frame (Sleep not yet armed, Wait not yet begun, on the event the getter answered); joining a closed task yields null without suspending, joining a live one descends into its completion event's Wait; a nested frame weighs no more than its instruction |
| Flattener.PullSleep | unity3d/Assets/Cothread/Cothread.cs:241-247 | Sleep arms a timer on the calling task ms from now and yields the callback sentinel, then ends |
| Flattener.PullWait | unity3d/Assets/Cothread/Cothread.cs:609-621 | Wait on a set event yields its value without suspending; otherwise the task is appended to the waiters and the sentinel is yielded; after the wake-up an armed timeout is cancelled without throwing |
| Flattener.Pull | unity3d/Assets/Cothread/Cothread.cs:439-453 | one step of any checked frame, leaving frames that weigh less than it did |
| Flattener.Classify | unity3d/Assets/Cothread/Cothread.cs:448-464 | an event is surfaced raw; a timeout token is driven as an enumerator and its foreign-caller error logged; anything else goes to the hook, whose enumerable replaces the value |
| Flattener.StepChecked | unity3d/Assets/Cothread/Cothread.cs:437-464 | an inner failure is logged and ends only that frame; a nested enumerator is pushed; the walk always shrinks the stack |
| Flattener.AfterPull | unity3d/Assets/Cothread/Cothread.cs:437-464 | after one frame step: a finished frame is dropped, an exception is logged and ends that frame only, a nested enumerator is pushed above the rest, a value is classified; every outcome but an emitted value leaves a smaller stack |
| Flattener.Advance | unity3d/Assets/Cothread/Cothread.cs:427-466 | a finished enumerator has no frames; a checked frame of an unregistered task ends the whole enumerator without touching the hub; hook items pass through unchecked |
| Flattener.Offer | unity3d/Assets/Cothread/Cothread.cs:454-458 | without a hook nothing is converted |
| FlatStream.PlainStepMove | unity3d/Assets/Cothread/Cothread.cs:437-453 | a throwing step of a registered task is logged and drops its frame; a value step is emitted; a nested routine is pushed above the rest of its body |
| FlatStream.PlainMove | unity3d/Assets/Cothread/Cothread.cs:448-464 | a step either yields the head of the expected stream or keeps the stream unchanged, changing only the log |
| FlatStream.AdvanceFollowsStream | unity3d/Assets/Cothread/Cothread.cs:427-466 | for a plain body (no effect but a single throw per step; only values and nested plain routines yielded) and no hook, one MoveNext yields the next value of the in-place expansion of nested routines, and finishes exactly when that stream is empty |
| FlatStream.DriveBy | unity3d/Assets/Cothread/Cothread.cs:460-462 | enumerating any MoveNext step function yields at most the number of values asked for; the first end of the enumerator yields nothing, and otherwise its first value comes first |
| FlatStream.Drive | unity3d/Assets/Cothread/Cothread.cs:460-462 | enumerating the flattened enumerator yields at most the number of values asked for, nothing when its first MoveNext ends it, and otherwise that MoveNext's value first |
| FlatStream.DriveByYieldsStream | unity3d/Assets/Cothread/Cothread.cs:423-466 | any MoveNext step that always emits the head of the expected stream and leaves the tail, enumerated long enough, yields exactly that stream |
| FlatStream.DriveYieldsStream | unity3d/Assets/Cothread/Cothread.cs:423-466 | for a plain body and no hook, enumerated to the end, the flattened enumerator yields exactly the recursive in-place expansion of the body |
| FlatStream.DeregisteredYieldsNothing | unity3d/Assets/Cothread/Cothread.cs:431-435 | once its task is deregistered, the flattened enumerator yields nothing and changes nothing |
| Call.Dispatch | unity3d/Assets/Cothread/Cothread.cs:391-413 | a finished task is closed and deregistered; the sentinel parks the task or throws on a double suspend; a foreign handle is recorded; a closed or finished Cothread requeues, a live one makes the task its waiter; a set event requeues, an unset one makes it a waiter; anything else requeues |
| Call.StepTask | unity3d/Assets/Cothread/Cothread.cs:388-390 | the task's enumerator moves once and its new state is written back |
| Call.Resume | unity3d/Assets/Cothread/Cothread.cs:387-414 | current is cleared afterwards, and the step keeps the hub invariant and its evolution rules |
| Call.ResumeTask | unity3d/Assets/Cothread/Cothread.cs:387-414 | a Cothread is moved once and what it yielded is dispatched with current already cleared |
| Call.ResumeCases | unity3d/Assets/Cothread/Cothread.cs:387-391 | resuming an event raises nothing, queues its waiters in waiting order, empties its list and keeps its value, exactly the registered waiters lose their pending completion, and nothing else changes but `current`; resuming a cancelled token changes nothing but `current`, a live one is marked fired and, when its task is registered, marks that task, clears its pending completion and queues it; resuming a task the hub never created only clears `current` |
| Call.DeregisteredIsNotStepped | unity3d/Assets/Cothread/Cothread.cs:431-435 | resuming a deregistered Cothread runs none of its body and does not queue it again |
| Call.SetThenResumeWakesWaiters | unity3d/Assets/Cothread/Cothread.cs:596-632 | setting an event with waiters queues it; resuming it queues every waiter in order, empties the list and keeps the value |
| Call.JoinClosedDoesNotSuspend | unity3d/Assets/Cothread/Cothread.cs:538-541 | joining a closed Cothread yields null and the joiner is queued again at once |
| Ticking.Drain | unity3d/Assets/Cothread/Cothread.cs:262-269 | the drain pops a prefix of the entry queue in FIFO order, and each popped entry is resumed (`call`) on the hub the previous resume left, the last resume giving the outcome; when nothing escapes it resumes exactly the first k entries, the rest of the entry queue keeps its place at the front, everything the resumes admitted stays queued behind it in order; no timer entry is lost |
| Ticking.DrainAfter | unity3d/Assets/Cothread/Cothread.cs:262-269 | the same, once the head has been popped and resumed: the given outcome is that first resume, and every later entry is resumed on the hub the one before it left |
| Ticking.Fire | unity3d/Assets/Cothread/Cothread.cs:275-279 | each fired entry was the due head of the list, was removed and resumed on the hub the previous firing left, the last resume giving the outcome; the fired entries come in deadline order and every entry was fired or is still listed; unless cut short, the new head is not due |
| Ticking.FireAfter | unity3d/Assets/Cothread/Cothread.cs:276-279 | the same, once the due head has been removed and resumed: the given outcome is that first resume, and every later firing continues from the hub the one before it left |
| Ticking.FireRest | unity3d/Assets/Cothread/Cothread.cs:276-279 | the same, when that first resume raised nothing: the later firings start from the hub it reached |
| Ticking.FireFiresAllDue | unity3d/Assets/Cothread/Cothread.cs:275-279 | when the timer phase ends because the head is not due, every entry due at its start has been fired |
| Ticking.Tick | unity3d/Assets/Cothread/Cothread.cs:261-279 | the drain covers exactly the entry queue before any timer fires; between the phases the clock has advanced by the elapsed time, the ready queue holds exactly what the drain admitted, and every timer entry of the start is still listed; the timer phase then fires from that list in list order, each fired entry was due, the ready queue only grows; unless cut short, the next entry is not yet due |
| Ticking.TickDrainResumes | unity3d/Assets/Cothread/Cothread.cs:261-271 | a tick's drain resumes the entry queue one entry after another from the hub it was given, each on the hub the previous resume left; when no exception escapes, the timer phase starts from the last of those hubs with the clock advanced by the elapsed time |
| Ticking.TickFireResumes | unity3d/Assets/Cothread/Cothread.cs:272-279 | the timer phase of a tick that reached it removes and resumes its fired entries one after another, starting from the hub between the phases, and the last resume gives the outcome |
| Ticking.ClosedStaysClosed | unity3d/Assets/Cothread/Cothread.cs:261-279 | a Cothread closed before a tick is not registered after it |
| WrapAround.AddU32 | unity3d/Assets/Cothread/Cothread.cs:272 | unsigned 32-bit addition is exact below 2^32 and loses 2^32 above |
| WrapAround.WakeTimeAsWritten | unity3d/Assets/Cothread/Cothread.cs:380-381 | a deadline past 2^32 wraps below the current clock |
| WrapAround.WrappedDeadlineFiresEarly | unity3d/Assets/Cothread/Cothread.cs:380-381 | a 100 ms timer armed 10 ms before the wrap is due at once |
| WrapAround.WrappedClockStallsTimer | unity3d/Assets/Cothread/Cothread.cs:272-275 | a 5 ms timer armed 10 ms before the wrap is still not due 20 ms later, after the clock wraps |
| WrapAround.TimerDueExactlyAfterItsDelay | unity3d/Assets/Cothread/Cothread.cs:380-381 | with an unbounded clock, a timer armed for time ms is due exactly once time ms have elapsed |

## Where the documented design and the code differ

The model follows the code in each case.

- `List.Sort` is not stable, so timers with equal deadlines fire in no promised order. `SortedPermutationsAgreeOnDeadlines` shows that the order of deadlines is still fixed.
- A task-body exception inside a nested routine ends only that routine's `callIEnumerable`. The enclosing routine then continues with its next step. The exception is not propagated to the resume boundary.
- An exception that escapes `call` also escapes `Tick`. Examples are `addCallback`'s "yield exist" error and the null dereference after a task closed itself and then yielded an `IAsyncResult`. The model returns these as a `Faulted` outcome.
- A `CothreadEvent` is surfaced without consulting the host hook. Any other value that is not an enumerator goes to the hook.
- A yielded `CothreadTimeout` is itself an `IEnumerator`. The flattener therefore drives it as a nested routine. Its `MoveNext` sees that it is not the hub's `current`, so it throws. The error is logged and the task goes on.
- When `Wait(ms)` is woken by its own timeout, its final `Cancel(false)` clears the task's `Timeout` marker. A later `IsTimeout` then answers false.
- A task woken by a `Wait` timeout stays in the event's waiter list. A later `Set` therefore queues it again.

## Left out

- Ticking.Tick: the timer phase fires at most `fuel` entries. The source loops while the head is due, which need not end, for example when a body sleeps for 0 ms in a loop. `exhausted` reports a cut-short run, and the promise that no timer is left due holds only when the run was not cut short.
- Ticking.Tick: the returned sleep hint is not modelled. It is floating point: `IdleTickTime`, `BusyTickTime` and the `TicksPerMillisecond` division. The stopwatch is replaced by the `delta` argument.
- Flattener.Advance: the hook `GlobalAsyncHandle` receives the yielded value, not the inner enumerator. The host adapter that supplies the hook is not part of this model.
- The answer of `IsTimeout` inside a body is not observed, because scripted bodies cannot branch on results. Its effect on the timeout marker is modelled.
- Bodies do not construct events. An event the hub holds no entry for reads as `new CothreadEvent()`, unset. The constructor that takes a value is modelled on the event alone, as `EventSlot.Preset`.
- A `YieldValue` whose value is an event identity stands for an event object the body kept from an earlier step. The model does not check that the body could have obtained it.
- Sync.Resolve: a reference to a Cothread the hub never created resolves to that Cothread's first identity and creates nothing. A body cannot hold such a reference.
- Scheduler.StartCoroutineAfter: the model arms the timer before registering, while the source registers first. The two steps touch disjoint parts of the hub and the new id is known in advance, so the order does not change the result.
- Flattener.PullWait: when a timeout is armed (`ms > 0`), the contract states only the waiter registration and the yielded sentinel. The arming is stated by `Sync.StartToken`.
- Call.Resume: its own contract states only that `current` is cleared and the invariants kept. For an event, a timeout token and an unknown task, `Call.ResumeCases` states the resulting hub field by field. For a Cothread it only names `ResumeTask`, whose contract and `Call.Dispatch` state the rest.
- FlatStream.AdvanceFollowsStream: the agreement with the reference stream is proved only for plain bodies and no hook. A Sleep, a Wait, a Join, an event reference, a timeout token or a body effect other than a throw yields a value, or descends into a frame, that depends on the hub's state: the timer list, the events, the registry. No reference stream independent of the hub exists for those. The hook is supplied by the host. For other bodies the stream is stated only by `Flattener.Advance`'s own contract.
- FlatStream.DriveYieldsStream: holds only for plain bodies and no hook, for the same reason.
- Sync.TaskOf: a task id the hub never created reads as a closed Cothread. A body cannot hold such a reference.
- `Sleep`'s "current == null" error is not modelled. The iterator is lazy and always runs inside `call`, where `current` is set.
- `StartThread` and the threads behind `BeginInvoke`/`EndInvoke` are not modelled. A foreign completion is an explicit `CallBack` step, and each `lock (locker)` region is one atomic step.
- A completion that arrives before `call` has recorded the `AsyncResult` is not modelled, because it needs real concurrency.
- `onSet` and `onSet0` on events, and `EndCallBack`, are not modelled. They are host callbacks.
- Also not modelled:
  - `Cothread.Locals`, the finalizer `~Cothread`, `CothreadResult<T>` and the `ToString` overrides;
  - `CoHelper`'s thin wrappers and the `Invoke` overloads;
  - `MainThreadID`, `Stoped`/`Start`/`Stop` and `NormalHub.Loop`;
  - the `[ThreadStatic]` instance.
- The `CothreadTimeout` fields `PassTime`, `startTime` and `TimeoutTime` are not modelled. They only report wall-clock time.
- `CothreadHub.Join(ie, ms)` is a null-tolerant wrapper around `Cothread.Join` and is not modelled separately.
- `unity3d/Assets/Cothread/CoHub.cs` (the Unity host adapter) and `unity3d/Assets/Cothread/CoTest.cs` (a demonstration script) are not part of this model.

## Findings

| source | as written | input that shows it | evidently intended | confidence | as-written member | corrected member |
|---|---|---|---|---|---|---|
| unity3d/Assets/Cothread/Cothread.cs:381 | `passTime + time` is a `uint` sum that wraps at 2^32 | passTime = 4294967286, time = 100: WakeTime is 90, so the timer is due in the same tick | the timer fires 100 ms later | medium, not executed | WrapAround.WrappedDeadlineFiresEarly | WrapAround.TimerDueExactlyAfterItsDelay |
| unity3d/Assets/Cothread/Cothread.cs:272 | `passTime += elapsed` wraps after about 49.7 days | passTime = 4294967286 and a 5 ms timer (WakeTime 4294967291); 20 ms later passTime is 10 and the timer is not due | every timer whose delay has passed fires | medium, not executed | WrapAround.WrappedClockStallsTimer | Ticking.FireFiresAllDue |
| unity3d/Assets/Cothread/Cothread.cs:312-313 | `th.AsyncResult` is read without checking that `GetCothread` found the task | a task yields handle 7, another task closes it, then handle 7 completes: NullReferenceException on the completing thread | a completion for a task that is gone is logged as stale, like a mismatched handle | high, not executed | Scheduler.CompletionAfterDeregistrationFaults | Scheduler.CompletionAfterDeregistrationIsStale |

=== FILE: call.dfy ===
/** `CothreadHub.call(ie)`: resume one enumerator, then decide from the value
    it yielded where its task waits next. */
module Call {
  import opened Kinds
  import opened TimerList
  import opened EventSlot
  import opened Continuation
  import opened Tasks
  import opened Scheduler
  import Sync
  import opened Flattener

  /** Put task `u` back at the end of the ready queue. */
  function Requeue(h: Hub, u: TaskId): (r: Hub)
    ensures r == AddCothread(h, TaskIE(u))
    ensures Evolves(h, r) && (Core(h) ==> Core(r))
  {
    AddCothread(h, TaskIE(u))
  }

  /** The classification half of `call`, after the task's flattened
      enumerator moved to `item` (`None` when it finished). */
  function Dispatch(h: Hub, u: TaskId, item: Option<Value>): (r: Outcome)
    // The enumerator ended: a registered Cothread is closed and deregistered.
    ensures item.None? && Registered(h, u) ==> r == Running(Sync.Close(h, u))
    ensures item.None? && !Registered(h, u) ==> r == Running(h)
    // The callback sentinel parks the task; a pending foreign completion makes it fail.
    ensures item == Some(CallbackSentinel) ==>
              && r.h == h
              && (r.Faulted? <==> Registered(h, u) && h.objs[u].asyncResult.Some?)
              && (r.Faulted? ==> r.err == YieldExist)
    // A foreign handle is recorded, so that its completion readmits the task.
    ensures item.Some? && item.value.AsyncHandle? ==>
              && (Registered(h, u) && h.objs[u].asyncResult.None? ==>
                    r == Running(h.(objs := h.objs[u := h.objs[u].(asyncResult := Some(item.value.handle))])))
              && (Registered(h, u) && h.objs[u].asyncResult.Some? ==> r == Faulted(h, YieldExist))
              && (!Registered(h, u) ==> r == Faulted(h, NullReference))
    // A Cothread: wait for its completion event, unless it is closed or the event is set.
    ensures item.Some? && item.value.TaskVal? ==>
              var w := item.value.task;
              && r.Running?
              && (Sync.TaskOf(h, w).closed ==> r.h == Requeue(h, u))
              && (!Sync.TaskOf(h, w).closed ==>
                    var h1 := Sync.EnsureEv(h, w);
                    var e := Sync.Completion(h, w);
                    if Seted(Sync.EventOf(h1, e)) then r.h == Requeue(h1, u)
                    else && r.h == Sync.AddWaiter(h1, e, u).1 && r.h.ready == h.ready
                         && Sync.EventOf(r.h, e).waiters == Sync.EventOf(h1, e).waiters + [u])
    // An event: wait on it unless it is already set.
    ensures item.Some? && item.value.EventVal? ==>
              var e := item.value.event;
              && r.Running?
              && (Seted(Sync.EventOf(h, e)) ==> r.h == Requeue(h, u))
              && (!Seted(Sync.EventOf(h, e)) ==>
                    r.h == Sync.AddWaiter(h, e, u).1 && r.h.ready == h.ready
                    && Sync.EventOf(r.h, e).waiters == Sync.EventOf(h, e).waiters + [u])
    // Anything else: ready again on the next tick.
    ensures item.Some? && (item.value.Null? || item.value.Opaque? || item.value.TimeoutVal?) ==>
              r == Running(Requeue(h, u))
    ensures r.h.current == h.current
    ensures Evolves(h, r.h) && (Core(h) ==> Core(r.h))
  {
    match item
    case None =>
      if Registered(h, u) then Running(Sync.Close(h, u)) else Running(h)
    case Some(v) =>
      match v
      case CallbackSentinel => AddCallback(h, u)
      case AsyncHandle(a) =>
        if AddCallback(h, u).Faulted? then Faulted(h, YieldExist)
        else if !Registered(h, u) then Faulted(h, NullReference)
        else Running(h.(objs := h.objs[u := h.objs[u].(asyncResult := Some(a))]))
      case TaskVal(w) =>
        if Sync.TaskOf(h, w).closed then Running(Requeue(h, u))
        else
          var h1 := Sync.EnsureEv(h, w);
          var added := Sync.AddWaiter(h1, Sync.Completion(h, w), u);
          EvolvesTrans(h, h1, added.1);
          if added.0 then Running(added.1)
          else
            EvolvesTrans(h, h1, Requeue(h1, u));
            Running(Requeue(h1, u))
      case EventVal(e) =>
        if Seted(Sync.EventOf(h, e)) then Running(Requeue(h, u))
        else Running(Sync.AddWaiter(h, e, u).1)
      case _ => Running(Requeue(h, u))
  }

  /** The flattened enumerator of a Cothread that exists, moved once, with
      its new state written back into the Cothread. */
  function StepTask(h: Hub, hook: Option<Hook>, u: TaskId): (r: (Hub, Option<Value>))
    requires u in h.objs
    ensures u in r.0.objs
    ensures var a := Advance(h, hook, u, h.objs[u].stack);
            && r.1 == a.item
            && r.0 == a.h.(objs := a.h.objs[u := a.h.objs[u].(stack := a.stack)])
    ensures Evolves(h, r.0) && (Core(h) ==> Core(r.0))
  {
    var a := Advance(h, hook, u, h.objs[u].stack);
    var h1 := a.h.(objs := a.h.objs[u := a.h.objs[u].(stack := a.stack)]);
    assert Evolves(a.h, h1) && (Core(a.h) ==> Core(h1));
    EvolvesTrans(h, a.h, h1);
    (h1, a.item)
  }

  /** `call(ie)`: `current` is `ie` while it moves, and `null` again
      before the hub looks at the result. An event's `MoveNext` wakes its
      waiters and a token's fires it; neither yields, and neither is a
      registered Cothread, so nothing else happens. A Cothread's flattened
      enumerator moves once and its result is dispatched. */
  function Resume(h: Hub, hook: Option<Hook>, ie: Ref): (r: Outcome)
    ensures r.h.current == None
    ensures Evolves(h, r.h) && (Core(h) ==> Core(r.h))
  {
    var h0 := h.(current := Some(ie));
    assert Evolves(h, h0) && (Core(h) ==> Core(h0));
    match ie
    case EventIE(e) =>
      var h1 := Sync.DrainWaiters(h0, e);
      EvolvesTrans(h, h0, h1);
      Running(h1.(current := None))
    case TimeoutIE(o) =>
      var h1 := Sync.FireToken(h0, o);
      EvolvesTrans(h, h0, h1);
      Running(h1.(current := None))
    case TaskIE(u) =>
      if u !in h.objs then Running(h0.(current := None))
      else
        var r := ResumeTask(h0, hook, u);
        EvolvesTrans(h, h0, r.h);
        r
  }

  /** The Cothread half of `call`, with `current` already set. */
  function ResumeTask(h: Hub, hook: Option<Hook>, u: TaskId): (r: Outcome)
    requires u in h.objs
    ensures var s := StepTask(h, hook, u); r == Dispatch(s.0.(current := None), u, s.1)
    ensures r.h.current == None
    ensures Evolves(h, r.h) && (Core(h) ==> Core(r.h))
  {
    var s := StepTask(h, hook, u);
    var h1 := s.0.(current := None);
    assert Evolves(s.0, h1) && (Core(s.0) ==> Core(h1));
    EvolvesTrans(h, s.0, h1);
    var r := Dispatch(h1, u, s.1);
    EvolvesTrans(h, h1, r.h);
    r
  }

  /** What `call` does for each kind of enumerator. Resuming an event
      queues its waiters in waiting order, empties its list and keeps its
      value; resuming a timeout token fires it; resuming a task the hub
      never created only clears `current`. Neither an event nor a token
      raises, and each leaves every other event, token and timer alone. */
  lemma ResumeCases(h: Hub, hook: Option<Hook>, ie: Ref)
    ensures ie.EventIE? ==>
              var r := Resume(h, hook, ie);
              var ev := Sync.EventOf(h, ie.event);
              && r.Running?
              && r.h == h.(current := None, ready := h.ready + Refs(ev.waiters), objs := r.h.objs,
                           events := h.events[ie.event := ev.(waiters := [])])
              && r.h.objs.Keys == h.objs.Keys
              && forall u :: u in h.objs ==>
                   r.h.objs[u] == h.objs[u].(asyncResult :=
                     if u in ev.waiters && Registered(h, u) then None else h.objs[u].asyncResult)
    ensures ie.TimeoutIE? ==>
              var r := Resume(h, hook, ie);
              var tok := Sync.TokenOf(h, ie.token);
              && r.Running?
              && (tok.cancelled ==> r.h == h.(current := None))
              && (!tok.cancelled ==>
                    && r.h == h.(current := None, tokens := h.tokens[ie.token := tok.(timedOut := true)],
                                 ready := r.h.ready, objs := r.h.objs)
                    && if tok.target.Some? && Registered(h, tok.target.value) then
                         var u := tok.target.value;
                         && r.h.ready == h.ready + [TaskIE(u)]
                         && r.h.objs == h.objs[u := h.objs[u].(timeout := Some(ie.token), asyncResult := None)]
                       else
                         r.h.ready == h.ready && r.h.objs == h.objs)
    ensures ie.TaskIE? && ie.task in h.objs ==>
              Resume(h, hook, ie) == ResumeTask(h.(current := Some(ie)), hook, ie.task)
    ensures ie.TaskIE? && ie.task !in h.objs ==> Resume(h, hook, ie) == Running(h.(current := None))
  {
  }

  /** A Cothread that has left the registry is never stepped: resuming it
      finds its enumerator finished, changes nothing but that enumerator's
      state, and does not queue it again. */
  lemma DeregisteredIsNotStepped(h: Hub, hook: Option<Hook>, u: TaskId)
    requires u in h.objs && !Registered(h, u)
    requires h.objs[u].stack == [] || !Top(h.objs[u].stack).HookFrame?
    ensures Resume(h, hook, TaskIE(u)) ==
              Running(h.(objs := h.objs[u := h.objs[u].(stack := [])], current := None))
  {
    ResumeCases(h, hook, TaskIE(u));
    var h0 := h.(current := Some(TaskIE(u)));
    assert Advance(h0, hook, u, h0.objs[u].stack) == Advanced(h0, None, []);
  }
  /** `Set` with waiters queues the event; when the hub resumes it, every
      waiter joins the ready queue in order, the waiter list is empty, and
      the value stays stored. */
  lemma SetThenResumeWakesWaiters(h: Hub, hook: Option<Hook>, e: EventId, v: Value, default: Value)
    requires Sync.EventOf(h, e).waiters != []
    ensures var h1 := Sync.SetEvent(h, e, v);
            var r := Resume(h1, hook, EventIE(e));
            && h1.ready == h.ready + [EventIE(e)]
            && r.Running?
            && r.h.ready == h.ready + [EventIE(e)] + Refs(Sync.EventOf(h, e).waiters)
            && Sync.EventOf(r.h, e).waiters == []
            && Sync.GetEvent(r.h, e, default) == v
  {
    var h1 := Sync.SetEvent(h, e, v);
    ResumeCases(h1, hook, EventIE(e));
  }

  /** Joining a closed Cothread does not suspend: `Join` gives `null`, the
      body yields it, and the hub queues the joiner again at once. */
  lemma JoinClosedDoesNotSuspend(h: Hub, u: TaskId, w: TaskId, ms: nat, rest: seq<Step>)
    requires Sync.TaskOf(h, w).closed
    ensures PullScript(h, [Step([], YieldJoin(w, ms))] + rest) == Produced(h, Null, Script(rest))
    ensures Dispatch(h, u, Some(Null)) == Running(AddCothread(h, TaskIE(u)))
  {
    var steps := [Step([], YieldJoin(w, ms))] + rest;
    assert steps[1..] == rest;
    assert RunActs(h, steps[0].acts) == Running(h);
  }
}

=== FILE: continuation.dfy ===
/** Task bodies and the state of their flattened enumerators.

    A C# iterator is code that runs between `yield return`s. Here a body is
    a script: each `Step` is what one `MoveNext` of that iterator does, a
    list of effects on the hub followed by what it yields (or that it
    returns). Values that are themselves enumerators are separate `Next`
    forms, because the flattener descends into them instead of surfacing
    them: a user-written nested routine, `hub.Sleep(ms)`, `ev.Wait(ms)` and
    `th.Join(ms)`.

    The flattened enumerator `callIEnumerable(routine, th)` is a stack of
    nested generators; a `Frame` is one of them, the last frame of the
    stack being the innermost. */
module Continuation {
  import opened Kinds

  /** How a body names an event: a `CothreadEvent` it created, or the
      completion event `th.ev` of a Cothread it holds. The getter runs when
      the step does, so the event it reaches is the one current then. */
  datatype EventRef = UserRef(n: nat) | CompletionOf(task: TaskId)

  /** An effect a task body performs inside one `MoveNext`. */
  datatype Act =
    | SetEvent(event: EventRef, v: Value)         // ev.Set(v)
    | ClearEvent(event: EventRef)                 // ev.Clear()
    | CloseTask(task: TaskId)                     // th.Close()
    | CheckTimeout(isThrow: bool)                 // CurrentCothread.IsTimeout(isThrow)
    | StartTimeout(token: TimeoutId, ms: nat)     // CothreadTimeout.NewWithStart(ms) or t.Start(ms)
    | CancelTimeout(token: TimeoutId, isThrow: bool)  // t.Cancel(isThrow)
    | Spawn(body: seq<Step>)                      // hub.StartCoroutine(routine)
    | SpawnAfter(ms: nat, body: seq<Step>)        // hub.StartCoroutine(ms, routine)
    | Throw(code: nat)                            // the body throws an exception of its own

  /** How one `MoveNext` of a body ends. */
  datatype Next =
    | YieldValue(v: Value)                // yield return v
    | YieldSub(body: seq<Step>)           // yield return a nested IEnumerator or IEnumerable
    | YieldSleep(ms: nat)                 // yield return hub.Sleep(ms)
    | YieldEvent(event: EventRef)         // yield return ev
    | YieldWait(event: EventRef, ms: nat) // yield return ev.Wait(ms)
    | YieldJoin(task: TaskId, ms: nat)    // yield return th.Join(ms)
    | Finish                              // the iterator returns

  datatype Step = Step(acts: seq<Act>, next: Next)

  /** Where the iterator of `CothreadEvent.Wait(ms)` stands: not started;
      it yielded the stored value of an event that was already set; or it
      registered as a waiter (arming a timeout when `ms > 0`) and yielded
      the callback sentinel. */
  datatype WaitPhase = Begin | Replied | Waiting(armed: Option<TimeoutId>)

  /** One generator of the flattened enumerator. `Script`, `SleepFrame` and
      `WaitFrame` are wrapped by `callIEnumerable`, which checks the registry
      before each of their steps; `HookFrame` is the enumerable returned by
      the host hook, whose items are passed through as they are. */
  datatype Frame =
    | Script(steps: seq<Step>)
    | SleepFrame(ms: nat, slept: bool)
    | WaitFrame(event: EventId, ms: nat, phase: WaitPhase)
    | HookFrame(items: seq<Value>)

  /** The remaining work in a body, counting nested routines: each step
      weighs more than anything it can push onto the stack. */
  function BodySize(steps: seq<Step>): nat
    decreases steps
  {
    if steps == [] then 0 else NextSize(steps[0].next) + 1 + BodySize(steps[1..])
  }

  function NextSize(n: Next): nat
    decreases n
  {
    match n
    case YieldSub(body) => BodySize(body) + 1
    case YieldSleep(_) => 3
    case YieldWait(_, _) => 3
    case YieldJoin(_, _) => 3
    case _ => 1
  }

  function FrameSize(f: Frame): nat {
    match f
    case Script(steps) => BodySize(steps) + 1
    case SleepFrame(_, slept) => if slept then 1 else 2
    case WaitFrame(_, _, phase) => if phase.Begin? then 3 else 1
    case HookFrame(items) => |items| + 1
  }

  function StackSize(s: seq<Frame>): nat {
    if s == [] then 0 else StackSize(s[..|s| - 1]) + FrameSize(s[|s| - 1])
  }

  lemma StackPush(s: seq<Frame>, f: Frame)
    ensures StackSize(s + [f]) == StackSize(s) + FrameSize(f)
  {
    assert (s + [f])[..|s|] == s;
  }

  lemma StackPushTwo(s: seq<Frame>, f: Frame, g: Frame)
    ensures StackSize(s + [f, g]) == StackSize(s) + FrameSize(f) + FrameSize(g)
  {
    assert s + [f, g] == (s + [f]) + [g];
    StackPush(s + [f], g);
    StackPush(s, f);
  }
}

=== FILE: event_slot.dfy ===
/** `CothreadEvent` on its own: a single slot that is either unset (the
    private `NULL` sentinel) or holds one value, plus the list of waiting
    enumerators. The parts of `Set` and `MoveNext` that touch the hub live in
    the `Sync` module. */
module EventSlot {
  import opened Kinds

  datatype Event = Event(slot: Option<Value>, waiters: seq<TaskId>)

  /** `new CothreadEvent()`: unset, nobody waiting. */
  const Fresh: Event := Event(None, [])

  /** `new CothreadEvent(v)`: created already set to `v`. */
  function Preset(v: Value): (e: Event)
    ensures Seted(e) && e.waiters == []
    ensures e == Store(Fresh, v)
  {
    Event(Some(v), [])
  }

  /** `Seted`: the slot holds a value (possibly `null`). */
  predicate Seted(ev: Event) {
    ev.slot.Some?
  }

  /** `add(ie)`: registers a waiter unless the event is already set; the
      boolean says whether it did. */
  function Add(ev: Event, t: TaskId): (r: (bool, Event))
    ensures r.0 <==> !Seted(ev)
    ensures r.0 ==> r.1.waiters == ev.waiters + [t] && r.1.slot == ev.slot
    ensures !r.0 ==> r.1 == ev
  {
    if Seted(ev) then (false, ev) else (true, ev.(waiters := ev.waiters + [t]))
  }

  /** `Clear()`: back to unset; the waiters are dropped, not woken. */
  function Clear(ev: Event): (r: Event)
    ensures !Seted(r) && r.waiters == []
  {
    Fresh
  }

  /** `Get(defaultValue)`. */
  function Get(ev: Event, default: Value): (r: Value)
    ensures Seted(ev) ==> r == ev.slot.value
    ensures !Seted(ev) ==> r == default
  {
    if Seted(ev) then ev.slot.value else default
  }

  /** The slot half of `Set(v)`: the value replaces whatever was stored and
      the waiters stay until the event's own `MoveNext` moves them. */
  function Store(ev: Event, v: Value): (r: Event)
    ensures Seted(r) && r.slot == Some(v) && r.waiters == ev.waiters
  {
    ev.(slot := Some(v))
  }

  /** Set is sticky: after `Store(v)`, `Get` answers `v` whatever the
      default, and `Add` refuses to register a waiter. */
  lemma StoreThenGet(ev: Event, v: Value, default: Value, t: TaskId)
    ensures Get(Store(ev, v), default) == v
    ensures Add(Store(ev, v), t) == (false, Store(ev, v))
  {
  }

  /** After `Clear` the event accepts waiters again and `Get` answers the
      default: `Clear` is the only way back from set to unset. */
  lemma ClearThenAdd(ev: Event, t: TaskId, default: Value)
    ensures Add(Clear(ev), t) == (true, Event(None, [t]))
    ensures Get(Clear(ev), default) == default
  {
    assert Fresh.waiters + [t] == [t];
  }
}

=== FILE: flat_stream.dfy ===
/** An independent account of what the flattened enumerator yields, for
    bodies that only yield values, nest routines, return or throw: the
    values of a nested routine appear in place of the routine, and a body
    that throws contributes nothing from that step on. The lemmas show that
    `Advance`, driven to the end, yields exactly this stream. */
module FlatStream {
  import opened Kinds
  import opened Continuation
  import opened Scheduler
  import opened Flattener

  /** A step with no effects other than possibly throwing, ending in a
      plain value (not a `CothreadTimeout`), a plain nested routine, or a
      return. */
  predicate PlainStep(s: Step)
    decreases s
  {
    && (s.acts == [] || (|s.acts| == 1 && s.acts[0].Throw?))
    && match s.next
       case YieldValue(v) => !v.TimeoutVal?
       case YieldSub(body) => PlainBody(body)
       case Finish => true
       case _ => false
  }

  predicate PlainBody(steps: seq<Step>)
    decreases steps
  {
    steps == [] || (PlainStep(steps[0]) && PlainBody(steps[1..]))
  }

  /** The values a plain body yields, nested routines expanded in place. */
  function FlatBody(steps: seq<Step>): seq<Value>
    decreases steps
  {
    if steps == [] || steps[0].acts != [] then []
    else
      match steps[0].next
      case YieldValue(v) => [v] + FlatBody(steps[1..])
      case YieldSub(body) => FlatBody(body) + FlatBody(steps[1..])
      case _ => []
  }

  predicate PlainStack(stack: seq<Frame>) {
    forall i :: 0 <= i < |stack| ==> stack[i].Script? && PlainBody(stack[i].steps)
  }

  /** What a stack of plain frames still has to yield, innermost first. */
  function FlatStack(stack: seq<Frame>): seq<Value>
    requires PlainStack(stack)
  {
    if stack == [] then [] else FlatBody(Top(stack).steps) + FlatStack(Below(stack))
  }

  lemma FlatPush(below: seq<Frame>, f: Frame)
    requires PlainStack(below) && f.Script? && PlainBody(f.steps)
    ensures PlainStack(below + [f])
    ensures FlatStack(below + [f]) == FlatBody(f.steps) + FlatStack(below)
  {
    assert Below(below + [f]) == below;
  }

  /** The step a checked frame takes when its task is registered and the
      frame is plain. */
  lemma PlainStepMove(h: Hub, t: TaskId, below: seq<Frame>, steps: seq<Step>)
    requires Registered(h, t) && PlainBody(steps)
    ensures var m := StepChecked(h, None, t, below, Script(steps));
            if steps == [] then m == Again(h, below)
            else if steps[0].acts != [] then steps[0].acts[0].Throw? && m == Again(Log(h, Caught(BodyException(steps[0].acts[0].code))), below)
            else match steps[0].next
                 case YieldValue(v) => m == Emit(h, v, below + [Script(steps[1..])])
                 case YieldSub(body) => m == Again(h, below + [Script(steps[1..]), Script(body)])
                 case _ => m == Again(h, below)
  {
    if steps != [] && steps[0].acts != [] {
      var err := BodyException(steps[0].acts[0].code);
      assert RunAct(h, steps[0].acts[0]) == Faulted(h, err);
      assert RunActs(h, steps[0].acts) == Faulted(h, err);
      assert PullScript(h, steps) == Failed(h, err);
      assert Pull(h, t, Script(steps)) == Failed(h, err);
      assert StepChecked(h, None, t, below, Script(steps)) == Again(Log(h, Caught(err)), below);
    }
  }

  /** One `MoveNext` over a non-empty stack with a checked innermost frame
      of a registered task is that frame's step, repeated while it moves on
      without a value. */
  lemma AdvanceUnfold(h: Hub, hook: Option<Hook>, t: TaskId, stack: seq<Frame>)
    requires stack != [] && !Top(stack).HookFrame? && Registered(h, t)
    ensures var m := StepChecked(h, hook, t, Below(stack), Top(stack));
            Advance(h, hook, t, stack) ==
              if m.Emit? then Advanced(m.h, Some(m.item), m.stack) else Advance(m.h, hook, t, m.stack)
  {
    assert stack == Below(stack) + [Top(stack)];
  }

  /** What `AdvanceFollowsStream` promises about one `MoveNext`. */
  ghost predicate FollowsStream(h: Hub, stack: seq<Frame>, r: Advanced)
    requires PlainStack(stack)
  {
    && r.h == h.(log := r.h.log)
    && PlainStack(r.stack)
    && (FlatStack(stack) == [] ==> r.item.None?)
    && (FlatStack(stack) != [] ==>
          r.item == Some(FlatStack(stack)[0]) && FlatStack(r.stack) == FlatStack(stack)[1..])
  }

  /** A walk that moved on without a value, to a stack with the same
      stream and a hub that differs only in its log, still follows the
      stream. */
  lemma FollowsTransfer(h: Hub, h2: Hub, s1: seq<Frame>, s2: seq<Frame>, r: Advanced)
    requires PlainStack(s1) && PlainStack(s2) && FlatStack(s1) == FlatStack(s2)
    requires h2 == h.(log := h2.log) && FollowsStream(h2, s2, r)
    ensures FollowsStream(h, s1, r)
  {
  }

  /** The streams of a plain stack whose innermost body starts with a
      step that yields `v`, nests `body`, or yields nothing more. */
  lemma FlatStackValue(below: seq<Frame>, steps: seq<Step>)
    requires PlainStack(below) && PlainBody(steps) && steps != []
    requires steps[0].acts == [] && steps[0].next.YieldValue?
    ensures PlainStack(below + [Script(steps)]) && PlainStack(below + [Script(steps[1..])])
    ensures FlatStack(below + [Script(steps)]) == [steps[0].next.v] + FlatStack(below + [Script(steps[1..])])
  {
    FlatPush(below, Script(steps));
    FlatPush(below, Script(steps[1..]));
  }

  lemma FlatStackSub(below: seq<Frame>, steps: seq<Step>)
    requires PlainStack(below) && PlainBody(steps) && steps != []
    requires steps[0].acts == [] && steps[0].next.YieldSub?
    ensures var s2 := below + [Script(steps[1..]), Script(steps[0].next.body)];
            && PlainStack(below + [Script(steps)]) && PlainStack(s2)
            && FlatStack(below + [Script(steps)]) == FlatStack(s2)
  {
    var body := steps[0].next.body;
    var rest := steps[1..];
    var s2 := below + [Script(rest), Script(body)];
    FlatPush(below, Script(steps));
    FlatPush(below, Script(rest));
    assert s2 == (below + [Script(rest)]) + [Script(body)];
    FlatPush(below + [Script(rest)], Script(body));
    assert FlatBody(steps) == FlatBody(body) + FlatBody(rest);
    assert FlatStack(s2) == FlatBody(body) + (FlatBody(rest) + FlatStack(below));
  }

  lemma FlatStackSkip(below: seq<Frame>, steps: seq<Step>)
    requires PlainStack(below) && PlainBody(steps)
    requires steps == [] || steps[0].acts != [] || steps[0].next.Finish?
    ensures PlainStack(below + [Script(steps)])
    ensures FlatStack(below + [Script(steps)]) == FlatStack(below)
  {
    FlatPush(below, Script(steps));
  }

  /** One step of the innermost plain frame either yields the head of the
      stream, or moves on to a stack with the same stream, changing only the
      log. */
  lemma PlainMove(h: Hub, t: TaskId, stack: seq<Frame>)
    requires Registered(h, t) && PlainStack(stack) && stack != []
    ensures var m := StepChecked(h, None, t, Below(stack), Top(stack));
            && (m.Emit? ==> FollowsStream(h, stack, Advanced(m.h, Some(m.item), m.stack)))
            && (m.Again? ==> PlainStack(m.stack) && FlatStack(m.stack) == FlatStack(stack) && m.h == h.(log := m.h.log))
  {
    var top := Top(stack);
    var below := Below(stack);
    assert stack == below + [top];
    assert PlainStack(below);
    var steps := top.steps;
    PlainStepMove(h, t, below, steps);
    if steps == [] || steps[0].acts != [] || steps[0].next.Finish? {
      FlatStackSkip(below, steps);
    } else if steps[0].next.YieldValue? {
      FlatStackValue(below, steps);
    } else {
      assert PlainStep(steps[0]);
      FlatStackSub(below, steps);
    }
  }

  /** One `MoveNext` of the flattened enumerator over plain frames yields
      the next value of the stream, or finishes exactly when the stream is
      empty; only the log changes, by the exceptions caught. */
  lemma {:induction false} AdvanceFollowsStream(h: Hub, t: TaskId, stack: seq<Frame>)
    requires Registered(h, t) && PlainStack(stack)
    ensures FollowsStream(h, stack, Advance(h, None, t, stack))
    decreases StackSize(stack)
  {
    if stack != [] {
      assert stack == Below(stack) + [Top(stack)];
      AdvanceUnfold(h, None, t, stack);
      PlainMove(h, t, stack);
      var m := StepChecked(h, None, t, Below(stack), Top(stack));
      if m.Again? {
        assert Registered(m.h, t);
        AdvanceFollowsStream(m.h, t, m.stack);
        FollowsTransfer(h, m.h, stack, m.stack, Advance(m.h, None, t, m.stack));
      }
    }
  }

  /** Enumerating an enumerator whose `MoveNext` is `next`, to the end or
      for at most `fuel` values. */
  function DriveBy(next: (Hub, seq<Frame>) -> Advanced, h: Hub, stack: seq<Frame>, fuel: nat): (r: (Hub, seq<Value>))
    ensures |r.1| <= fuel
    ensures fuel > 0 && next(h, stack).item.None? ==> r == (next(h, stack).h, [])
    ensures fuel > 0 && next(h, stack).item.Some? ==> r.1 != [] && r.1[0] == next(h, stack).item.value
    decreases fuel
  {
    if fuel == 0 then (h, [])
    else
      var a := next(h, stack);
      match a.item
      case None => (a.h, [])
      case Some(v) =>
        var rest := DriveBy(next, a.h, a.stack, fuel - 1);
        (rest.0, [v] + rest.1)
  }

  /** Enumerating the flattened enumerator of task `t` (at most `fuel`
      values), as `foreach` over `callIEnumerable` does. */
  function Drive(h: Hub, hook: Option<Hook>, t: TaskId, stack: seq<Frame>, fuel: nat): (r: (Hub, seq<Value>))
    ensures |r.1| <= fuel
    ensures fuel > 0 && Advance(h, hook, t, stack).item.None? ==> r.1 == []
    ensures fuel > 0 && Advance(h, hook, t, stack).item.Some? ==> r.1 != [] && r.1[0] == Advance(h, hook, t, stack).item.value
  {
    DriveBy((h': Hub, s: seq<Frame>) => Advance(h', hook, t, s), h, stack, fuel)
  }

  /** Any `MoveNext` that follows the stream of plain stacks, driven to the
      end, yields the whole stream. */
  lemma {:induction false} DriveByYieldsStream(next: (Hub, seq<Frame>) -> Advanced, t: TaskId, h: Hub, stack: seq<Frame>, fuel: nat)
    requires forall h': Hub, s: seq<Frame> :: Registered(h', t) && PlainStack(s) ==> FollowsStream(h', s, next(h', s))
    requires Registered(h, t) && PlainStack(stack)
    requires |FlatStack(stack)| < fuel
    ensures DriveBy(next, h, stack, fuel).1 == FlatStack(stack)
    decreases fuel
  {
    var a := next(h, stack);
    assert FollowsStream(h, stack, a);
    var xs := FlatStack(stack);
    if xs != [] {
      assert Registered(a.h, t) by { assert a.h == h.(log := a.h.log); }
      DriveByYieldsStream(next, t, a.h, a.stack, fuel - 1);
      assert xs == [xs[0]] + xs[1..];
    }
  }

  /** Nested routines are expanded in place, recursively: the flattened
      enumerator of a plain body yields exactly its stream and then ends. */
  lemma DriveYieldsStream(h: Hub, t: TaskId, stack: seq<Frame>, fuel: nat)
    requires Registered(h, t) && PlainStack(stack)
    requires |FlatStack(stack)| < fuel
    ensures Drive(h, None, t, stack, fuel).1 == FlatStack(stack)
  {
    var next := (h': Hub, s: seq<Frame>) => Advance(h', None, t, s);
    forall h': Hub, s: seq<Frame> | Registered(h', t) && PlainStack(s)
      ensures FollowsStream(h', s, next(h', s))
    {
      AdvanceFollowsStream(h', t, s);
    }
    DriveByYieldsStream(next, t, h, stack, fuel);
  }

  /** Once its task has left the registry, the flattened enumerator of a
      body that is not inside a hook's enumerable yields nothing more and
      changes nothing. */
  lemma DeregisteredYieldsNothing(h: Hub, hook: Option<Hook>, t: TaskId, stack: seq<Frame>, fuel: nat)
    requires !Registered(h, t)
    requires stack == [] || !Top(stack).HookFrame?
    ensures Drive(h, hook, t, stack, fuel) == (h, [])
  {
  }
}

=== FILE: flattener.dfy ===
/** `callIEnumerable(routine, th)`: the generator that turns a task body,
    with its nested routines, `Sleep`, `Wait` and `Join` iterators and the
    host hook's enumerables, into one flat stream of suspension values.

    The nested generators form a stack of frames. `Advance` is one
    `MoveNext` of the outermost generator: it steps the innermost frame,
    descends into nested enumerators, drops finished frames, and stops at
    the first value that reaches the outermost `yield return`. */
module Flattener {
  import opened Kinds
  import opened TimerList
  import opened EventSlot
  import opened Continuation
  import opened Tasks
  import opened Scheduler
  import Sync

  /** One effect of a body on the hub. An event reference is looked up
      first, which creates a Cothread's completion event on first use. A
      body holding a Cothread that the hub never created cannot exist, so
      closing an unknown id changes nothing. */
  function RunAct(h: Hub, a: Act): (r: Outcome)
    ensures a.Throw? ==> r == Faulted(h, BodyException(a.code))
    ensures a.SetEvent? ==>
              var x := Sync.Resolve(h, a.event); r == Running(Sync.SetEvent(x.0, x.1, a.v))
    ensures a.ClearEvent? ==>
              var x := Sync.Resolve(h, a.event); r == Running(Sync.ClearEvent(x.0, x.1))
    ensures a.CloseTask? && a.task in h.objs ==> r == Running(Sync.Close(h, a.task))
    ensures a.CloseTask? && a.task !in h.objs ==> r == Running(h)
    ensures a.CheckTimeout? ==> r == Sync.CheckTimeout(h, a.isThrow)
    ensures a.StartTimeout? ==> r == Sync.StartToken(h, a.token, a.ms)
    ensures a.CancelTimeout? ==> r == Sync.CancelToken(h, a.token, a.isThrow)
    ensures a.Spawn? ==> r == Running(StartCoroutine(h, a.body).0)
    ensures a.Spawn? ==> r.Running? && r.h.ready == h.ready + [TaskIE(h.nextTask)]
    ensures a.SpawnAfter? ==> r == Running(StartCoroutineAfter(h, a.ms, a.body).0)
    ensures Evolves(h, r.h) && (Core(h) ==> Core(r.h))
  {
    match a
    case SetEvent(x, v) =>
      var (h1, e) := Sync.Resolve(h, x);
      Running(Sync.SetEvent(h1, e, v))
    case ClearEvent(x) =>
      var (h1, e) := Sync.Resolve(h, x);
      Running(Sync.ClearEvent(h1, e))
    case CloseTask(u) => if u in h.objs then Running(Sync.Close(h, u)) else Running(h)
    case CheckTimeout(isThrow) => Sync.CheckTimeout(h, isThrow)
    case StartTimeout(o, ms) => Sync.StartToken(h, o, ms)
    case CancelTimeout(o, isThrow) => Sync.CancelToken(h, o, isThrow)
    case Spawn(body) => Running(StartCoroutine(h, body).0)
    case SpawnAfter(ms, body) => Running(StartCoroutineAfter(h, ms, body).0)
    case Throw(code) => Faulted(h, BodyException(code))
  }

  /** The effects of one step, in order; the first exception abandons the
      rest of the step, keeping what the earlier effects did. */
  function RunActs(h: Hub, acts: seq<Act>): (r: Outcome)
    ensures acts == [] ==> r == Running(h)
    ensures acts != [] && RunAct(h, acts[0]).Faulted? ==> r == RunAct(h, acts[0])
    ensures acts != [] && RunAct(h, acts[0]).Running? ==> r == RunActs(RunAct(h, acts[0]).h, acts[1..])
    ensures Evolves(h, r.h) && (Core(h) ==> Core(r.h))
    decreases |acts|
  {
    if acts == [] then Running(h)
    else
      match RunAct(h, acts[0])
      case Faulted(h1, err) => Faulted(h1, err)
      case Running(h1) =>
        var r := RunActs(h1, acts[1..]);
        EvolvesTrans(h, h1, r.h);
        r
  }

  /** Running two runs of effects back to back is running them as one:
      the second starts from where the first left the hub, unless the first
      threw, in which case the second never runs. */
  lemma {:induction false} RunActsAppend(h: Hub, a: seq<Act>, b: seq<Act>)
    ensures RunActs(h, a).Faulted? ==> RunActs(h, a + b) == RunActs(h, a)
    ensures RunActs(h, a).Running? ==> RunActs(h, a + b) == RunActs(RunActs(h, a).h, b)
    decreases |a|
  {
    if a == [] {
      assert a + b == b;
    } else {
      var ab := a + b;
      assert ab[0] == a[0] && ab[1..] == a[1..] + b;
      var o := RunAct(h, a[0]);
      if o.Running? {
        RunActsAppend(o.h, a[1..], b);
      }
    }
  }

  /** What one `MoveNext` of a single frame did. */
  datatype Pulled =
    | Finished(h: Hub)                         // the frame's iterator returned
    | Failed(h: Hub, err: Error)               // it threw
    | Produced(h: Hub, v: Value, rest: Frame)  // it yielded a value
    | Nested(h: Hub, rest: Frame, inner: Frame)  // it yielded an enumerator to descend into

  /** Whatever a frame leaves behind weighs less than the frame did. */
  predicate Shrinks(f: Frame, p: Pulled) {
    match p
    case Produced(_, _, rest) => FrameSize(rest) < FrameSize(f)
    case Nested(_, rest, inner) => FrameSize(rest) + FrameSize(inner) < FrameSize(f)
    case _ => true
  }

  lemma BodySizeSplit(steps: seq<Step>)
    requires steps != []
    ensures BodySize(steps) == NextSize(steps[0].next) + 1 + BodySize(steps[1..])
  {
  }

  /** One step of a user body: its effects, then how it ended. */
  function PullScript(h: Hub, steps: seq<Step>): (p: Pulled)
    ensures steps == [] ==> p == Finished(h)
    ensures steps != [] && RunActs(h, steps[0].acts).Faulted? ==>
              p == Failed(RunActs(h, steps[0].acts).h, RunActs(h, steps[0].acts).err)
    ensures steps != [] && RunActs(h, steps[0].acts).Running? ==>
              p == PullNext(RunActs(h, steps[0].acts).h, steps[0].next, steps[1..])
    ensures Shrinks(Script(steps), p)
    ensures Evolves(h, p.h) && (Core(h) ==> Core(p.h))
  {
    if steps == [] then Finished(h)
    else
      BodySizeSplit(steps);
      match RunActs(h, steps[0].acts)
      case Faulted(h1, err) => Failed(h1, err)
      case Running(h1) =>
        var p := PullNext(h1, steps[0].next, steps[1..]);
        EvolvesTrans(h, h1, p.h);
        p
  }

  /** How a step that ran its effects to the end goes on. `yield return
      th.Join(ms)` evaluates `Join` inside the step; a closed Cothread
      gives `null`, which is yielded as a value. */
  function PullNext(h: Hub, n: Next, rest: seq<Step>): (p: Pulled)
    ensures n.YieldValue? ==> p == Produced(h, n.v, Script(rest))
    ensures n.YieldSub? ==> p == Nested(h, Script(rest), Script(n.body))
    ensures n.Finish? ==> p == Finished(h)
    ensures n.YieldSleep? ==> p == Nested(h, Script(rest), SleepFrame(n.ms, false))
    ensures n.YieldEvent? ==>
              var x := Sync.Resolve(h, n.event); p == Produced(x.0, EventVal(x.1), Script(rest))
    ensures n.YieldWait? ==>
              var x := Sync.Resolve(h, n.event); p == Nested(x.0, Script(rest), WaitFrame(x.1, n.ms, Begin))
    ensures n.YieldJoin? && Sync.TaskOf(h, n.task).closed ==> p == Produced(h, Null, Script(rest))
    ensures n.YieldJoin? && !Sync.TaskOf(h, n.task).closed ==>
              var j := Sync.Join(h, n.task, n.ms);
              j.1.Some? && p == Nested(j.0, Script(rest), j.1.value)
    ensures p.Produced? ==> p.rest == Script(rest)
    ensures p.Nested? ==> p.rest == Script(rest) && FrameSize(p.inner) <= NextSize(n)
    ensures Evolves(h, p.h) && (Core(h) ==> Core(p.h))
  {
    match n
    case YieldValue(v) => Produced(h, v, Script(rest))
    case YieldSub(body) => Nested(h, Script(rest), Script(body))
    case YieldSleep(ms) => Nested(h, Script(rest), SleepFrame(ms, false))
    case YieldEvent(x) =>
      var (h1, e) := Sync.Resolve(h, x);
      Produced(h1, EventVal(e), Script(rest))
    case YieldWait(x, ms) =>
      var (h1, e) := Sync.Resolve(h, x);
      Nested(h1, Script(rest), WaitFrame(e, ms, Begin))
    case YieldJoin(u, ms) =>
      var j := Sync.Join(h, u, ms);
      if j.1.None? then Produced(j.0, Null, Script(rest)) else Nested(j.0, Script(rest), j.1.value)
    case Finish => Finished(h)
  }

  /** `hub.Sleep(ms)` for the task `t`: the first step arms a timer on the
      task and yields the callback sentinel; the second ends. */
  function PullSleep(h: Hub, t: TaskId, ms: nat, slept: bool): (p: Pulled)
    ensures slept ==> p == Finished(h)
    ensures !slept ==> p == Produced(AddTimeUp(h, ms, TaskIE(t)), CallbackSentinel, SleepFrame(ms, true))
    ensures Shrinks(SleepFrame(ms, slept), p)
    ensures Evolves(h, p.h) && (Core(h) ==> Core(p.h))
  {
    if slept then Finished(h)
    else Produced(AddTimeUp(h, ms, TaskIE(t)), CallbackSentinel, SleepFrame(ms, true))
  }

  /** `ev.Wait(ms)` for the task `t`. A set event answers its stored value
      at once. Otherwise `t` becomes a waiter, a timeout is started when
      `ms > 0`, and the sentinel is yielded; the step after the wake-up
      cancels that timeout without throwing. */
  function PullWait(h: Hub, t: TaskId, e: EventId, ms: nat, phase: WaitPhase): (p: Pulled)
    ensures phase.Begin? && Seted(Sync.EventOf(h, e)) ==>
              p == Produced(h, Sync.EventOf(h, e).slot.value, WaitFrame(e, ms, Replied))
    ensures phase.Begin? && !Seted(Sync.EventOf(h, e)) ==>
              && Sync.EventOf(p.h, e).waiters == Sync.EventOf(h, e).waiters + [t]
              && (p.Produced? ==> p.v == CallbackSentinel)
              && (ms == 0 ==> p == Produced(Sync.AddWaiter(h, e, t).1, CallbackSentinel, WaitFrame(e, ms, Waiting(None))))
    ensures phase.Replied? || phase == Waiting(None) ==> p == Finished(h)
    ensures phase.Waiting? && phase.armed.Some? ==>
              var c := Sync.CancelToken(h, phase.armed.value, false);
              p == (if c.Running? then Finished(c.h) else Failed(c.h, c.err))
    ensures Shrinks(WaitFrame(e, ms, phase), p)
    ensures Evolves(h, p.h) && (Core(h) ==> Core(p.h))
  {
    match phase
    case Begin =>
      var ev := Sync.EventOf(h, e);
      if Seted(ev) then Produced(h, ev.slot.value, WaitFrame(e, ms, Replied))
      else
        var h1 := Sync.AddWaiter(h, e, t).1;
        if ms == 0 then Produced(h1, CallbackSentinel, WaitFrame(e, ms, Waiting(None)))
        else
          var o := WaitTimeout(h1.nextWaitToken);
          var h2 := h1.(nextWaitToken := h1.nextWaitToken + 1);
          assert Evolves(h1, h2) && (Core(h1) ==> Core(h2));
          EvolvesTrans(h, h1, h2);
          var s := Sync.StartToken(h2, o, ms);
          EvolvesTrans(h, h2, s.h);
          assert s.h.events == h2.events;
          if s.Faulted? then Failed(s.h, s.err)
          else Produced(s.h, CallbackSentinel, WaitFrame(e, ms, Waiting(Some(o))))
    case Replied => Finished(h)
    case Waiting(None) => Finished(h)
    case Waiting(Some(o)) =>
      match Sync.CancelToken(h, o, false)
      case Faulted(h1, err) => Failed(h1, err)
      case Running(h1) => Finished(h1)
  }

  /** One step of a checked frame. */
  function Pull(h: Hub, t: TaskId, f: Frame): (p: Pulled)
    requires !f.HookFrame?
    ensures f.Script? ==> p == PullScript(h, f.steps)
    ensures f.SleepFrame? ==> p == PullSleep(h, t, f.ms, f.slept)
    ensures f.WaitFrame? ==> p == PullWait(h, t, f.event, f.ms, f.phase)
    ensures Shrinks(f, p)
    ensures Evolves(h, p.h) && (Core(h) ==> Core(p.h))
  {
    match f
    case Script(steps) => PullScript(h, steps)
    case SleepFrame(ms, slept) => PullSleep(h, t, ms, slept)
    case WaitFrame(e, ms, phase) => PullWait(h, t, e, ms, phase)
  }

  /** The state of the flattened enumerator after one `MoveNext`: the value
      it yielded, or `None` when it is finished. */
  datatype Advanced = Advanced(h: Hub, item: Option<Value>, stack: seq<Frame>)

  function Top(stack: seq<Frame>): Frame
    requires stack != []
  {
    stack[|stack| - 1]
  }

  function Below(stack: seq<Frame>): seq<Frame>
    requires stack != []
  {
    stack[..|stack| - 1]
  }

  /** What handling the innermost frame decided: a value reaches the
      outermost `yield return`, or the walk goes on with a smaller stack. */
  datatype Move = Emit(h: Hub, item: Value, stack: seq<Frame>) | Again(h: Hub, stack: seq<Frame>)

  /** A value the frames above `s` yielded, seen by the generator that
      drives them. */
  function Classify(h: Hub, hook: Option<Hook>, t: TaskId, v: Value, s: seq<Frame>): (m: Move)
    ensures v.EventVal? ==> m == Emit(h, v, s)
    ensures v.TimeoutVal? ==>
              m == Again(if Registered(h, t) then Log(h, Caught(ForeignCaller)) else h, s)
    ensures !v.EventVal? && !v.TimeoutVal? && Offer(hook, v).None? ==> m == Emit(h, v, s)
    ensures !v.EventVal? && !v.TimeoutVal? && Offer(hook, v).Some? ==>
              var items := Offer(hook, v).value;
              m == if items == [] then Again(h, s) else Emit(h, items[0], s + [HookFrame(items[1..])])
    ensures Evolves(h, m.h) && (Core(h) ==> Core(m.h))
  {
    if v.EventVal? then Emit(h, v, s)
    else if v.TimeoutVal? then
      Again(if Registered(h, t) then Log(h, Caught(ForeignCaller)) else h, s)
    else
      match Offer(hook, v)
      case None => Emit(h, v, s)
      case Some(items) =>
        if items == [] then Again(h, s) else Emit(h, items[0], s + [HookFrame(items[1..])])
  }

  /** One step of the innermost frame, when it is not a hook's enumerable
      and its task is registered. */
  function StepChecked(h: Hub, hook: Option<Hook>, t: TaskId, below: seq<Frame>, top: Frame): (m: Move)
    requires !top.HookFrame?
    ensures var p := Pull(h, t, top);
            && (p.Finished? ==> m == Again(p.h, below))
            && (p.Failed? ==> m == Again(Log(p.h, Caught(p.err)), below))
            && (p.Nested? ==> m == Again(p.h, below + [p.rest, p.inner]))
            && (p.Produced? ==> m == Classify(p.h, hook, t, p.v, below + [p.rest]))
    ensures m.Again? ==> StackSize(m.stack) < StackSize(below + [top])
    ensures Evolves(h, m.h) && (Core(h) ==> Core(m.h))
  {
    AfterPull(h, hook, t, below, top, Pull(h, t, top))
  }

  /** What the generator does with the result `p` of stepping the frame
      `top`: a finished frame is dropped, an exception is logged and ends
      that frame only, a nested enumerator is pushed, and a value is
      classified. */
  function AfterPull(h: Hub, hook: Option<Hook>, t: TaskId, below: seq<Frame>, top: Frame, p: Pulled): (m: Move)
    requires Shrinks(top, p)
    requires Evolves(h, p.h) && (Core(h) ==> Core(p.h))
    ensures p.Finished? ==> m == Again(p.h, below)
    ensures p.Failed? ==> m == Again(Log(p.h, Caught(p.err)), below)
    ensures p.Nested? ==> m == Again(p.h, below + [p.rest, p.inner])
    ensures p.Produced? ==> m == Classify(p.h, hook, t, p.v, below + [p.rest])
    ensures m.Again? ==> StackSize(m.stack) < StackSize(below + [top])
    ensures Evolves(h, m.h) && (Core(h) ==> Core(m.h))
  {
    StackPush(below, top);
    match p
    case Finished(h1) => Again(h1, below)
    case Failed(h1, err) =>
      var h2 := Log(h1, Caught(err));
      EvolvesTrans(h, h1, h2);
      Again(h2, below)
    case Nested(h1, rest, inner) =>
      StackPushTwo(below, rest, inner);
      Again(h1, below + [rest, inner])
    case Produced(h1, v, rest) =>
      StackPush(below, rest);
      var m := Classify(h1, hook, t, v, below + [rest]);
      EvolvesTrans(h, h1, m.h);
      m
  }

  /** One `MoveNext` of the flattened enumerator of task `t`.

      A frame other than a hook's enumerable first checks that `t` is still
      registered and ends if not; its enclosing frames then end the same
      way, so the whole enumerator is finished. An exception from a frame's
      step is logged and ends that frame only. A yielded `CothreadEvent` is
      surfaced as it is. A yielded `CothreadTimeout` is an enumerator, so a
      nested frame drives it; that frame is not the hub's current
      enumerator, so the token's `MoveNext` throws, the error is logged, and
      the nested frame yields nothing. Any other value is offered to the
      hook; an enumerable it returns is passed through item by item, with
      no registry check, and otherwise the value itself is surfaced. */
  function Advance(h: Hub, hook: Option<Hook>, t: TaskId, stack: seq<Frame>): (r: Advanced)
    ensures r.item.None? ==> r.stack == []
    ensures stack == [] ==> r == Advanced(h, None, [])
    ensures stack != [] && Top(stack).HookFrame? && Top(stack).items != [] ==>
              r == Advanced(h, Some(Top(stack).items[0]), Below(stack) + [HookFrame(Top(stack).items[1..])])
    ensures stack != [] && !Top(stack).HookFrame? && !Registered(h, t) ==> r == Advanced(h, None, [])
    ensures Evolves(h, r.h) && (Core(h) ==> Core(r.h))
    decreases StackSize(stack)
  {
    if stack == [] then Advanced(h, None, [])
    else
      var top := Top(stack);
      var below := Below(stack);
      assert stack == below + [top];
      StackPush(below, top);
      if top.HookFrame? then
        if top.items == [] then Advance(h, hook, t, below)
        else Advanced(h, Some(top.items[0]), below + [HookFrame(top.items[1..])])
      else if !Registered(h, t) then Advanced(h, None, [])
      else
        match StepChecked(h, hook, t, below, top)
        case Emit(h1, v, s) => Advanced(h1, Some(v), s)
        case Again(h1, s) =>
          var r := Advance(h1, hook, t, s);
          EvolvesTrans(h, h1, r.h);
          r
  }

  /** `GlobalAsyncHandle`, when installed, applied to a yielded value. */
  function Offer(hook: Option<Hook>, v: Value): (r: Option<seq<Value>>)
    ensures hook.None? ==> r.None?
  {
    match hook
    case None => None
    case Some(f) => f(v)
  }
}

=== FILE: kinds.dfy ===
/** Identities and values shared by every part of the Cothread scheduler model.
    The source keys its registry, ready queue and timer list by enumerator
    objects; here each enumerator the hub can drive gets an explicit identity. */
module Kinds {

  datatype Option<+T> = None | Some(value: T)

  /** Identity of a Cothread together with its flattened enumerator `IE`. */
  type TaskId = nat

  /** Identity of an `IAsyncResult` handed out by foreign work. */
  type Handle = nat

  /** A user-created `CothreadEvent`, or a lazily created completion
      event `ev` of a Cothread. `Close` drops a Cothread's event, so the
      next `ev` is another object: `gen` counts the events dropped before
      this one. */
  datatype EventId = UserEvent(n: nat) | Notifier(owner: TaskId, gen: nat)

  /** A `CothreadTimeout` created by a task body, or the one that
      `CothreadEvent.Wait(ms)` creates internally. */
  datatype TimeoutId = UserTimeout(n: nat) | WaitTimeout(k: nat)

  /** What a task body can `yield return`, classified the way the hub's
      dynamic type tests classify it. */
  datatype Value =
    | Null
    | CallbackSentinel              // CothreadHub.YIELD_CALLBACK
    | AsyncHandle(handle: Handle)   // an IAsyncResult
    | TaskVal(task: TaskId)         // a Cothread
    | EventVal(event: EventId)      // a CothreadEvent
    | TimeoutVal(token: TimeoutId)  // a CothreadTimeout (itself an IEnumerator)
    | Opaque(tag: nat)              // any other object, e.g. a host awaitable

  /** The enumerators the hub queues and resumes. */
  datatype Ref = TaskIE(task: TaskId) | EventIE(event: EventId) | TimeoutIE(token: TimeoutId)

  /** Exceptions raised inside the core. */
  datatype Error =
    | YieldExist                    // CothreadError("addCallback error: yield exist")
    | NullReference                 // a member access through a null Cothread
    | ForeignCaller                 // CothreadTimeout.MoveNext driven by someone else
    | TimeoutError(token: TimeoutId)  // CothreadTimeoutError
    | BodyException(code: nat)      // an exception thrown by a task body itself

  /** Messages sent to the log sink `CothreadHub.Log`. */
  datatype Note = StaleCompletion(handle: Handle) | Caught(err: Error)

  /** The host-awaitable recognizer `GlobalAsyncHandle`: given the value a
      frame yielded, either nothing (not an `IEnumerable`) or the items of
      the enumerable it returns. */
  type Hook = Value -> Option<seq<Value>>
}

=== FILE: scheduler.dfy ===
/** `CothreadHub`'s state and its bookkeeping primitives: the registry, the
    ready queue `yields`, the timer list `times`, and the admission paths
    used by foreign completions.

    The `lock (locker)` regions make each primitive one atomic step; the
    model applies them one at a time. */
module Scheduler {
  import opened Kinds
  import opened TimerList
  import opened EventSlot
  import opened Continuation
  import opened Tasks

  /** The hub. `threads` is the registry (the keys of the source's
      `Dictionary<IEnumerator, Cothread>`); `objs` keeps every Cothread ever
      created, because a deregistered Cothread is still an object others
      can hold and ask whether it is `Closed`. Events and tokens are objects
      shared by tasks, so they live here too, under their identities. */
  datatype Hub = Hub(
    threads: set<TaskId>,
    objs: map<TaskId, Task>,
    nextTask: TaskId,
    ready: seq<Ref>,
    times: seq<YieldState>,
    passTime: nat,
    current: Option<Ref>,
    events: map<EventId, Event>,
    tokens: map<TimeoutId, Token>,
    nextWaitToken: nat,
    log: seq<Note>)

  /** `new CothreadHub()`. */
  const Empty: Hub := Hub({}, map[], 0, [], [], 0, None, map[], map[], 0, [])

  /** The result of a step that may throw out of the hub: the state reached
      so far, and the exception if one escaped. */
  datatype Outcome = Running(h: Hub) | Faulted(h: Hub, err: Error)

  predicate Registered(h: Hub, u: TaskId) {
    u in h.threads && u in h.objs
  }

  /** `GetCothread(ie)`: the Cothread registered under `ie`, or `null`. */
  function GetCothread(h: Hub, u: TaskId): (r: Option<Task>)
    ensures r.Some? <==> Registered(h, u)
    ensures r.Some? ==> r.value == h.objs[u]
  {
    if Registered(h, u) then Some(h.objs[u]) else None
  }

  /** What holds between steps: the timer list is sorted, every object was
      created by the hub, and a Cothread is registered exactly while it is
      not closed. */
  ghost predicate Core(h: Hub) {
    && Sorted(h.times)
    && (forall u :: u in h.objs ==> u < h.nextTask)
    && (forall u :: u in h.threads ==> u in h.objs && !h.objs[u].closed)
    && (forall u :: u in h.objs && !h.objs[u].closed ==> u in h.threads)
  }

  /** What any step inside one resume preserves: time stands still, the
      ready queue and the timer list only grow (new timers never due
      before now), objects are never forgotten, a closed Cothread stays
      closed, and only Cothreads created during the step can join the
      registry. */
  ghost predicate Evolves(h: Hub, h': Hub) {
    && h'.passTime == h.passTime
    && h.ready <= h'.ready
    && (Sorted(h.times) ==> Sorted(h'.times))
    && multiset(h.times) <= multiset(h'.times)
    && (forall x :: x in h'.times ==> x in h.times || h.passTime <= x.wakeTime)
    && h.nextTask <= h'.nextTask
    && (forall u :: u in h.objs ==> u in h'.objs)
    && (forall u :: u in h.objs && u < h.nextTask && h.objs[u].closed ==> h'.objs[u].closed)
    && (forall u :: u in h'.threads ==> u in h.threads || h.nextTask <= u)
  }

  lemma EvolvesTrans(a: Hub, b: Hub, c: Hub)
    requires Evolves(a, b) && Evolves(b, c)
    ensures Evolves(a, c)
  {
    assert a.ready <= c.ready by {
      assert c.ready[..|b.ready|] == b.ready;
      assert c.ready[..|a.ready|] == b.ready[..|a.ready|];
    }
  }

  /** `CothreadHub.Log(msg)`. */
  function Log(h: Hub, n: Note): (r: Hub)
    ensures r == h.(log := h.log + [n])
    ensures Evolves(h, r) && (Core(h) ==> Core(r))
  {
    h.(log := h.log + [n])
  }

  /** `addCothread(ie)`: a registered Cothread forgets any pending foreign
      completion, then `ie` joins the back of the ready queue. */
  function AddCothread(h: Hub, ie: Ref): (r: Hub)
    ensures r.ready == h.ready + [ie]
    ensures ie.TaskIE? && Registered(h, ie.task) ==>
              r.objs == h.objs[ie.task := h.objs[ie.task].(asyncResult := None)]
    ensures !(ie.TaskIE? && Registered(h, ie.task)) ==> r.objs == h.objs
    ensures r == h.(ready := r.ready, objs := r.objs)
    ensures Evolves(h, r) && (Core(h) ==> Core(r))
  {
    var h1 := if ie.TaskIE? && Registered(h, ie.task)
      then h.(objs := h.objs[ie.task := h.objs[ie.task].(asyncResult := None)])
      else h;
    h1.(ready := h1.ready + [ie])
  }

  function Refs(ts: seq<TaskId>): (r: seq<Ref>)
    ensures |r| == |ts|
    ensures forall i :: 0 <= i < |ts| ==> r[i] == TaskIE(ts[i])
  {
    if ts == [] then [] else [TaskIE(ts[0])] + Refs(ts[1..])
  }

  /** Only `ready` and the foreign-completion slots differ, and a slot that
      differs has been cleared. */
  ghost predicate SlotsOnly(h: Hub, r: Hub) {
    && r == h.(ready := r.ready, objs := r.objs)
    && r.objs.Keys == h.objs.Keys
    && (forall u :: u in h.objs ==> r.objs[u] == h.objs[u].(asyncResult := r.objs[u].asyncResult))
    && (forall u :: u in h.objs ==> r.objs[u].asyncResult in {None, h.objs[u].asyncResult})
  }

  lemma SlotsOnlyTrans(a: Hub, b: Hub, c: Hub)
    requires SlotsOnly(a, b) && SlotsOnly(b, c)
    ensures SlotsOnly(a, c)
  {
  }

  lemma SlotsOnlyKeepsCore(h: Hub, r: Hub)
    requires SlotsOnly(h, r) && h.ready <= r.ready
    ensures Evolves(h, r) && (Core(h) ==> Core(r))
  {
  }

  /** The registry and every Cothread's `Closed` flag are as they were, and
      so are the clock, the ready queue and the timer list. */
  ghost predicate TasksKept(h: Hub, r: Hub) {
    && r.threads == h.threads && r.nextTask == h.nextTask
    && r.objs.Keys == h.objs.Keys
    && (forall u :: u in h.objs ==> r.objs[u].closed == h.objs[u].closed)
    && r.passTime == h.passTime && r.ready == h.ready && r.times == h.times
  }

  lemma TasksKeptKeepsCore(h: Hub, r: Hub)
    requires TasksKept(h, r)
    ensures Evolves(h, r) && (Core(h) ==> Core(r))
  {
  }

  /** `addCothreads(ies)`: `addCothread` for each, in order; exactly the
      listed Cothreads that are registered lose their pending completion. */
  function AddCothreads(h: Hub, ts: seq<TaskId>): (r: Hub)
    ensures r.ready == h.ready + Refs(ts)
    ensures SlotsOnly(h, r)
    ensures forall u :: u in h.objs ==>
              r.objs[u].asyncResult == if u in ts && Registered(h, u) then None else h.objs[u].asyncResult
    decreases |ts|
  {
    if ts == [] then h
    else
      var h1 := AddCothread(h, TaskIE(ts[0]));
      assert SlotsOnly(h, h1);
      var r := AddCothreads(h1, ts[1..]);
      SlotsOnlyTrans(h, h1, r);
      ReadyAppend(h.ready, ts);
      r
  }

  lemma ReadyAppend(q: seq<Ref>, ts: seq<TaskId>)
    requires ts != []
    ensures q + [TaskIE(ts[0])] + Refs(ts[1..]) == q + Refs(ts)
  {
    assert Refs(ts) == [TaskIE(ts[0])] + Refs(ts[1..]);
  }

  /** `popYield()`: the front of the ready queue, or `null` when empty. */
  function PopYield(h: Hub): (r: (Option<Ref>, Hub))
    ensures r.0.None? <==> h.ready == []
    ensures r.0.Some? ==> h.ready == [r.0.value] + r.1.ready
    ensures r.0.None? ==> r.1 == h
    ensures r.1 == h.(ready := r.1.ready)
  {
    if h.ready == [] then (None, h)
    else (Some(h.ready[0]), h.(ready := h.ready[1..]))
  }

  /** `addTimeUp(time, ie)`: a new entry due `time` milliseconds from now,
      then the list is sorted again. */
  function AddTimeUp(h: Hub, time: nat, ie: Ref): (r: Hub)
    ensures Sorted(r.times)
    ensures multiset(r.times) == multiset(h.times) + multiset{YieldState(ie, h.passTime + time)}
    ensures r == h.(times := r.times)
    ensures Evolves(h, r) && (Core(h) ==> Core(r))
  {
    var r := h.(times := SortByWake(h.times + [YieldState(ie, h.passTime + time)]));
    forall x | x in r.times ensures x in h.times || h.passTime <= x.wakeTime {
      assert x in multiset(r.times);
    }
    r
  }

  /** `delCothread(ie)`: removes the registration and returns the Cothread
      that was registered, if any. */
  function DelCothread(h: Hub, u: TaskId): (r: (Option<Task>, Hub))
    ensures r.0 == GetCothread(h, u)
    ensures r.1 == h.(threads := h.threads - {u})
    ensures Evolves(h, r.1)
    ensures Core(h) && (u !in h.objs || h.objs[u].closed) ==> Core(r.1)
  {
    (GetCothread(h, u), h.(threads := h.threads - {u}))
  }

  /** `addCallback(ie)`: checks that a registered Cothread is not already
      waiting for a foreign completion; it changes nothing. */
  function AddCallback(h: Hub, u: TaskId): (r: Outcome)
    ensures r.h == h
    ensures r.Faulted? <==> Registered(h, u) && h.objs[u].asyncResult.Some?
    ensures r.Faulted? ==> r.err == YieldExist
  {
    match GetCothread(h, u)
    case None => Running(h)
    case Some(th) => if th.asyncResult.Some? then Faulted(h, YieldExist) else Running(h)
  }

  /** `callBack(ar)` as the source writes it. The completion's `AsyncState`
      is the enumerator of the task that started the work; a Cothread that
      has been deregistered meanwhile is `null` and is dereferenced. */
  function CallBackAsWritten(h: Hub, handle: Handle, u: TaskId): (r: Outcome)
    ensures !Registered(h, u) ==> r == Faulted(h, NullReference)
    ensures Registered(h, u) ==> r == Running(CallBack(h, handle, u))
  {
    if !Registered(h, u) then Faulted(h, NullReference) else Running(CallBack(h, handle, u))
  }

  /** `callBack(ar)` with the missing null check supplied: a completion
      whose handle is not the one the task is waiting for, or whose task is
      gone, is stale and is only logged; the matching completion clears the
      slot and readmits the task once. */
  function CallBack(h: Hub, handle: Handle, u: TaskId): (r: Hub)
    ensures Registered(h, u) && h.objs[u].asyncResult == Some(handle) ==>
              r == h.(ready := h.ready + [TaskIE(u)],
                      objs := h.objs[u := h.objs[u].(asyncResult := None)])
    ensures !(Registered(h, u) && h.objs[u].asyncResult == Some(handle)) ==>
              r == h.(log := h.log + [StaleCompletion(handle)])
    ensures Evolves(h, r) && (Core(h) ==> Core(r))
  {
    if Registered(h, u) && h.objs[u].asyncResult == Some(handle) then
      var h1 := h.(objs := h.objs[u := h.objs[u].(asyncResult := None)]);
      AddCothread(h1, TaskIE(u))
    else
      Log(h, StaleCompletion(handle))
  }

  /** `startCoroutine(routine)`: a fresh Cothread around the flattened
      routine, registered and not yet scheduled. */
  function Register(h: Hub, body: seq<Step>): (r: (Hub, TaskId))
    ensures r.1 == h.nextTask
    ensures Core(h) ==> r.1 !in h.objs && r.1 !in h.threads
    ensures r.0 == h.(threads := h.threads + {r.1},
                      objs := h.objs[r.1 := NewTask(body)],
                      nextTask := r.1 + 1)
    ensures Evolves(h, r.0) && (Core(h) ==> Core(r.0))
  {
    var u := h.nextTask;
    (h.(threads := h.threads + {u}, objs := h.objs[u := NewTask(body)], nextTask := u + 1), u)
  }

  /** `StartCoroutine(routine)`: register, then schedule for the next tick. */
  function StartCoroutine(h: Hub, body: seq<Step>): (r: (Hub, TaskId))
    ensures Registered(r.0, r.1) && r.0.objs[r.1] == NewTask(body)
    ensures Core(h) ==> r.1 !in h.objs
    ensures r.0.ready == h.ready + [TaskIE(r.1)]
    ensures r.0.times == h.times
    ensures r.0 == h.(threads := h.threads + {r.1}, objs := h.objs[r.1 := NewTask(body)],
                      nextTask := r.1 + 1, ready := h.ready + [TaskIE(r.1)])
    ensures Evolves(h, r.0) && (Core(h) ==> Core(r.0))
  {
    var reg := Register(h, body);
    var u := reg.1;
    var r := AddCothread(reg.0, TaskIE(u));
    EvolvesTrans(h, reg.0, r);
    (r, u)
  }

  /** `StartCoroutine(ms, routine)`: register, then arm a timer `ms` from
      now instead of queuing. Registering does not read or write the timer
      list and arming does not touch the registry, so the model arms first
      on the hub it was given. */
  function StartCoroutineAfter(h: Hub, ms: nat, body: seq<Step>): (r: (Hub, TaskId))
    ensures Registered(r.0, r.1) && r.0.objs[r.1] == NewTask(body)
    ensures Core(h) ==> r.1 !in h.objs
    ensures r.0.ready == h.ready
    ensures r.0 == h.(threads := h.threads + {r.1}, objs := h.objs[r.1 := NewTask(body)],
                      nextTask := r.1 + 1, times := AddTimeUp(h, ms, TaskIE(r.1)).times)
    ensures Evolves(h, r.0) && (Core(h) ==> Core(r.0))
  {
    var armed := AddTimeUp(h, ms, TaskIE(h.nextTask));
    var reg := Register(armed, body);
    assert reg.0 == armed.(threads := h.threads + {reg.1}, objs := h.objs[reg.1 := NewTask(body)],
                           nextTask := reg.1 + 1);
    EvolvesTrans(h, armed, reg.0);
    reg
  }

  /** A late completion crashes the callback as written: when a task that
      waits for `handle` is closed before the work finishes, delivering
      the completion dereferences the missing Cothread. */
  lemma CompletionAfterDeregistrationFaults(h: Hub, handle: Handle, u: TaskId)
    requires Registered(h, u) && h.objs[u].asyncResult == Some(handle)
    ensures CallBackAsWritten(h.(threads := h.threads - {u}), handle, u).Faulted?
    ensures CallBackAsWritten(h, handle, u).Running?
  {
  }

  /** With the check supplied, the same late completion is stale: it is
      logged and nothing else changes. */
  lemma CompletionAfterDeregistrationIsStale(h: Hub, handle: Handle, u: TaskId)
    requires Registered(h, u) && h.objs[u].asyncResult == Some(handle)
    ensures var h' := h.(threads := h.threads - {u});
            CallBack(h', handle, u) == h'.(log := h'.log + [StaleCompletion(handle)])
  {
  }

  /** A completion is admitted at most once: replaying the same completion
      after it was applied only logs it. */
  lemma CompletionAppliesOnce(h: Hub, handle: Handle, u: TaskId)
    requires Registered(h, u) && h.objs[u].asyncResult == Some(handle)
    ensures var h1 := CallBack(h, handle, u);
            && h1.ready == h.ready + [TaskIE(u)]
            && CallBack(h1, handle, u) == h1.(log := h1.log + [StaleCompletion(handle)])
  {
  }
}

=== FILE: sync.dfy ===
/** The parts of `CothreadEvent`, `Cothread` and `CothreadTimeout` that act
    on the hub: setting an event queues the event itself, an event's
    `MoveNext` moves its waiters to the ready queue, closing a Cothread
    sets its completion event, and a timeout token arms, fires and is
    cancelled through the timer list and the current task. */
module Sync {
  import opened Kinds
  import opened TimerList
  import opened EventSlot
  import opened Continuation
  import opened Tasks
  import opened Scheduler

  /** The event object behind an identity; an event nobody has touched yet
      is a fresh one. */
  function EventOf(h: Hub, e: EventId): Event {
    if e in h.events then h.events[e] else Fresh
  }

  function PutEvent(h: Hub, e: EventId, ev: Event): (r: Hub)
    ensures EventOf(r, e) == ev
    ensures forall e' :: e' != e ==> EventOf(r, e') == EventOf(h, e')
    ensures r == h.(events := r.events)
    ensures Evolves(h, r) && (Core(h) ==> Core(r))
  {
    h.(events := h.events[e := ev])
  }

  /** `ev.Set(v)`: store the value; if anyone waits, queue the event so its
      `MoveNext` wakes them on a later resume. The `onSet` and `onSet0`
      callbacks are not part of this model. */
  function SetEvent(h: Hub, e: EventId, v: Value): (r: Hub)
    ensures EventOf(r, e) == Store(EventOf(h, e), v)
    ensures forall e' :: e' != e ==> EventOf(r, e') == EventOf(h, e')
    ensures r.ready == h.ready + (if EventOf(h, e).waiters != [] then [EventIE(e)] else [])
    ensures r == h.(events := r.events, ready := r.ready)
    ensures Evolves(h, r) && (Core(h) ==> Core(r))
  {
    var ev := EventOf(h, e);
    var h1 := PutEvent(h, e, Store(ev, v));
    if ev.waiters != [] then AddCothread(h1, EventIE(e)) else h1
  }

  /** `ev.Clear()`: unset, and the waiters are dropped without being
      queued. */
  function ClearEvent(h: Hub, e: EventId): (r: Hub)
    ensures !Seted(EventOf(r, e)) && EventOf(r, e).waiters == []
    ensures forall e' :: e' != e ==> EventOf(r, e') == EventOf(h, e')
    ensures r == h.(events := r.events)
    ensures Evolves(h, r) && (Core(h) ==> Core(r))
  {
    PutEvent(h, e, Clear(EventOf(h, e)))
  }

  /** `ev.Get(defaultValue)`. */
  function GetEvent(h: Hub, e: EventId, default: Value): (r: Value)
    ensures Seted(EventOf(h, e)) ==> r == EventOf(h, e).slot.value
    ensures !Seted(EventOf(h, e)) ==> r == default
  {
    Get(EventOf(h, e), default)
  }

  /** `ev.add(ie)` on the hub's copy of the event. */
  function AddWaiter(h: Hub, e: EventId, u: TaskId): (r: (bool, Hub))
    ensures r.0 <==> !Seted(EventOf(h, e))
    ensures r.0 ==> EventOf(r.1, e) == EventOf(h, e).(waiters := EventOf(h, e).waiters + [u])
    ensures !r.0 ==> r.1 == h
    ensures forall e' :: e' != e ==> EventOf(r.1, e') == EventOf(h, e')
    ensures r.1 == h.(events := r.1.events)
    ensures Evolves(h, r.1) && (Core(h) ==> Core(r.1))
  {
    var (ok, ev) := Add(EventOf(h, e), u);
    if ok then (true, PutEvent(h, e, ev)) else (false, h)
  }

  /** `CothreadEvent.MoveNext()`, run by the hub when it pops the event from
      the ready queue: every waiter joins the ready queue in order, losing
      any pending foreign completion if it is registered, and the list is
      emptied; the stored value is untouched. (The check that the
      hub's `current` is this event always passes there: `call` sets it just
      before.) */
  function DrainWaiters(h: Hub, e: EventId): (r: Hub)
    ensures r.ready == h.ready + Refs(EventOf(h, e).waiters)
    ensures EventOf(r, e) == EventOf(h, e).(waiters := [])
    ensures forall e' :: e' != e ==> EventOf(r, e') == EventOf(h, e')
    ensures r == h.(ready := r.ready, objs := r.objs, events := h.events[e := EventOf(h, e).(waiters := [])])
    ensures r.objs.Keys == h.objs.Keys
    ensures forall u :: u in h.objs ==>
              r.objs[u] == h.objs[u].(asyncResult :=
                if u in EventOf(h, e).waiters && Registered(h, u) then None else h.objs[u].asyncResult)
    ensures Evolves(h, r) && (Core(h) ==> Core(r))
  {
    var ev := EventOf(h, e);
    var h1 := AddCothreads(h, ev.waiters);
    SlotsOnlyKeepsCore(h, h1);
    assert EventOf(h1, e) == ev;
    PutEvent(h1, e, ev.(waiters := []))
  }

  /** A Cothread as seen through a reference: a task id the hub never
      created reads as a finished Cothread. */
  function TaskOf(h: Hub, u: TaskId): Task {
    if u in h.objs then h.objs[u] else Task(true, None, None, false, 0, [])
  }

  /** The identity the Cothread `u`'s `ev` getter answers with next. */
  function Completion(h: Hub, u: TaskId): EventId
    requires u in h.objs
  {
    Notifier(u, h.objs[u].evGen)
  }

  /** The `ev` getter: the completion event is created on first use, and
      again on the first use after `Close` dropped it. */
  function EnsureEv(h: Hub, u: TaskId): (r: Hub)
    requires u in h.objs
    ensures u in r.objs && r.objs[u] == h.objs[u].(hasEv := true)
    ensures !h.objs[u].hasEv ==> EventOf(r, Completion(h, u)) == Fresh
    ensures h.objs[u].hasEv ==> r == h
    ensures forall e :: e != Completion(h, u) ==> EventOf(r, e) == EventOf(h, e)
    ensures r == h.(events := r.events, objs := h.objs[u := h.objs[u].(hasEv := true)])
    ensures Evolves(h, r) && (Core(h) ==> Core(r))
  {
    if h.objs[u].hasEv then h
    else
      var h1 := PutEvent(h, Completion(h, u), Fresh);
      h1.(objs := h1.objs[u := h1.objs[u].(hasEv := true)])
  }

  /** The event a body's reference reaches when its step runs. `th.ev`
      goes through the getter; a body holding a Cothread that the hub never
      created cannot exist, so such a reference creates nothing. */
  function Resolve(h: Hub, x: EventRef): (r: (Hub, EventId))
    ensures x.UserRef? ==> r == (h, UserEvent(x.n))
    ensures x.CompletionOf? && x.task in h.objs ==>
              && r.0 == EnsureEv(h, x.task)
              && r.1 == Completion(h, x.task) == Completion(r.0, x.task)
              && r.0.objs[x.task].hasEv
    ensures x.CompletionOf? && x.task !in h.objs ==> r == (h, Notifier(x.task, 0))
    ensures Evolves(h, r.0) && (Core(h) ==> Core(r.0))
  {
    match x
    case UserRef(n) => (h, UserEvent(n))
    case CompletionOf(u) =>
      if u in h.objs then (EnsureEv(h, u), Completion(h, u)) else (h, Notifier(u, 0))
  }

  /** `Cothread.Close()`. The first call marks the Cothread closed, sets its
      completion event (if one was created) to the Cothread itself, drops
      the event, and deregisters it; later calls do nothing. The dropped
      event stays in the hub for the waiters it queued. */
  function Close(h: Hub, u: TaskId): (r: Hub)
    requires u in h.objs
    ensures h.objs[u].closed ==> r == h
    ensures !h.objs[u].closed ==>
              var th := h.objs[u];
              && r.objs == h.objs[u := th.(closed := true, hasEv := false,
                                           evGen := if th.hasEv then th.evGen + 1 else th.evGen)]
              && r.threads == h.threads - {u}
    ensures !h.objs[u].closed && h.objs[u].hasEv ==>
              var e := Completion(h, u);
              && EventOf(r, e) == Store(EventOf(h, e), TaskVal(u))
              && r.ready == h.ready + (if EventOf(h, e).waiters != [] then [EventIE(e)] else [])
    ensures !h.objs[u].hasEv ==> r.ready == h.ready && r.events == h.events
    ensures forall e :: e != Completion(h, u) ==> EventOf(r, e) == EventOf(h, e)
    ensures r == h.(objs := r.objs, threads := r.threads, events := r.events, ready := r.ready)
    ensures Evolves(h, r) && (Core(h) ==> Core(r))
  {
    var th := h.objs[u];
    if th.closed then h
    else
      var h1 := h.(objs := h.objs[u := th.(closed := true)]);
      var h2 := if th.hasEv
        then
          var h' := SetEvent(h1, Completion(h, u), TaskVal(u));
          h'.(objs := h'.objs[u := th.(closed := true, hasEv := false, evGen := th.evGen + 1)])
        else h1;
      DelCothread(h2, u).1
  }

  /** Closing twice is closing once. */
  lemma CloseIdempotent(h: Hub, u: TaskId)
    requires u in h.objs
    ensures Close(Close(h, u), u) == Close(h, u)
  {
  }

  /** After `Close` the Cothread's `ev` is a new, unset event, while the
      dropped one keeps the Cothread as its value. */
  lemma CloseDropsEvent(h: Hub, u: TaskId)
    requires u in h.objs && !h.objs[u].closed && h.objs[u].hasEv
    ensures var h1 := Close(h, u);
            var h2 := EnsureEv(h1, u);
            && Completion(h1, u) != Completion(h, u)
            && EventOf(h2, Completion(h2, u)) == Fresh
            && EventOf(h2, Completion(h, u)).slot == Some(TaskVal(u))
  {
  }

  /** `Cothread.Join(ms)`: `null` for a closed Cothread, so the joiner is
      not suspended on it; otherwise the `Wait(ms)` iterator of its
      completion event, created here if needed. */
  function Join(h: Hub, u: TaskId, ms: nat): (r: (Hub, Option<Frame>))
    ensures TaskOf(h, u).closed ==> r == (h, None)
    ensures !TaskOf(h, u).closed ==>
              && u in h.objs
              && r.1 == Some(WaitFrame(Completion(h, u), ms, Begin))
              && r.0 == EnsureEv(h, u)
    ensures Evolves(h, r.0) && (Core(h) ==> Core(r.0))
  {
    if TaskOf(h, u).closed then (h, None)
    else (EnsureEv(h, u), Some(WaitFrame(Completion(h, u), ms, Begin)))
  }

  /** The token object behind an identity; one never started is a fresh
      `CothreadTimeout`. */
  function TokenOf(h: Hub, o: TimeoutId): Token {
    if o in h.tokens then h.tokens[o] else Unstarted
  }

  /** `CurrentCothread`: the registered Cothread whose enumerator is
      `current`, if any. */
  function CurrentCothread(h: Hub): (r: Option<TaskId>)
    ensures r.Some? ==> Registered(h, r.value) && h.current == Some(TaskIE(r.value))
    ensures r.None? ==> !(h.current.Some? && h.current.value.TaskIE? && Registered(h, h.current.value.task))
  {
    if h.current.Some? && h.current.value.TaskIE? && Registered(h, h.current.value.task)
    then Some(h.current.value.task) else None
  }

  /** Replace the Cothread `u`'s timeout marker. */
  function SetMarker(h: Hub, u: TaskId, m: Option<TimeoutId>): (r: Hub)
    requires u in h.objs
    ensures r == h.(objs := h.objs[u := h.objs[u].(timeout := m)])
    ensures Evolves(h, r) && (Core(h) ==> Core(r))
  {
    h.(objs := h.objs[u := h.objs[u].(timeout := m)])
  }

  function Retarget(h: Hub, o: TimeoutId, tok: Token, u: TaskId): (r: Hub)
    requires u in h.objs
    ensures r.times == h.times && r.passTime == h.passTime && r.ready == h.ready && r.events == h.events
    ensures r.objs == h.objs[u := h.objs[u].(timeout := None)]
    ensures TokenOf(r, o) == tok.(target := Some(u))
    ensures TasksKept(h, r)
  {
    h.(objs := h.objs[u := h.objs[u].(timeout := None)],
       tokens := h.tokens[o := tok.(target := Some(u))])
  }
  /** The part of `Start` that needs a running Cothread `u`: clear its
      marker, bind the token to it and arm the timer. */
  function Arm(h: Hub, o: TimeoutId, tok: Token, u: TaskId, ms: nat): (r: Hub)
    requires u in h.objs
    ensures TokenOf(r, o) == tok.(target := Some(u))
    ensures r.objs == h.objs[u := h.objs[u].(timeout := None)]
    ensures r.times == AddTimeUp(h, ms, TimeoutIE(o)).times
    ensures r.ready == h.ready && r.events == h.events
    ensures Evolves(h, r) && (Core(h) ==> Core(r))
  {
    var h2 := AddTimeUp(h, ms, TimeoutIE(o));
    var r := Retarget(h2, o, tok, u);
    TasksKeptKeepsCore(h2, r);
    EvolvesTrans(h, h2, r);
    r
  }

  /** `t.Start(ms)` (and `NewWithStart`): clears the cancel flag, clears the
      current Cothread's marker, binds the token to the current task and
      arms a timer on the token `ms` from now. Outside a running Cothread
      the marker assignment throws. The `Timeout` flag is left as it was. */
  function StartToken(h: Hub, o: TimeoutId, ms: nat): (r: Outcome)
    ensures CurrentCothread(h).None? ==>
              r == Faulted(h.(tokens := h.tokens[o := TokenOf(h, o).(cancelled := false)]), NullReference)
    ensures r.h.events == h.events
    ensures CurrentCothread(h).Some? ==>
              var u := CurrentCothread(h).value;
              && r.Running?
              && TokenOf(r.h, o) == TokenOf(h, o).(cancelled := false, target := Some(u))
              && r.h.objs == h.objs[u := h.objs[u].(timeout := None)]
              && r.h.times == AddTimeUp(h, ms, TimeoutIE(o)).times
              && r.h.ready == h.ready
              && r.h == h.(objs := r.h.objs, tokens := h.tokens[o := TokenOf(r.h, o)], times := r.h.times)
    ensures Evolves(h, r.h) && (Core(h) ==> Core(r.h))
  {
    var tok := TokenOf(h, o).(cancelled := false);
    match CurrentCothread(h)
    case None => Faulted(h.(tokens := h.tokens[o := tok]), NullReference)
    case Some(u) => Running(Arm(h, o, tok, u, ms))
  }

  /** `t.Cancel(isThrow)`: the current Cothread's marker is cleared if it is
      this token; then a token that has fired throws when asked to, before
      the cancel flag is set; otherwise the token is cancelled. Outside a
      running Cothread the marker test throws. */
  function CancelToken(h: Hub, o: TimeoutId, isThrow: bool): (r: Outcome)
    ensures CurrentCothread(h).None? ==> r == Faulted(h, NullReference)
    ensures CurrentCothread(h).Some? ==>
              var u := CurrentCothread(h).value;
              && (h.objs[u].timeout == Some(o) ==> r.h.objs == h.objs[u := h.objs[u].(timeout := None)])
              && (h.objs[u].timeout != Some(o) ==> r.h.objs == h.objs)
              && (isThrow && TokenOf(h, o).timedOut ==>
                    r.Faulted? && r.err == TimeoutError(o) && TokenOf(r.h, o) == TokenOf(h, o))
              && (!(isThrow && TokenOf(h, o).timedOut) ==>
                    r.Running? && TokenOf(r.h, o) == TokenOf(h, o).(cancelled := true)
                    && r.h.tokens == h.tokens[o := TokenOf(r.h, o)])
              && (isThrow && TokenOf(h, o).timedOut ==> r.h.tokens == h.tokens)
    ensures r.h == h.(objs := r.h.objs, tokens := r.h.tokens)
    ensures r.h.ready == h.ready && r.h.times == h.times && r.h.threads == h.threads
    ensures Evolves(h, r.h) && (Core(h) ==> Core(r.h))
  {
    match CurrentCothread(h)
    case None => Faulted(h, NullReference)
    case Some(u) =>
      var h1 := if h.objs[u].timeout == Some(o) then SetMarker(h, u, None) else h;
      var tok := TokenOf(h1, o);
      if isThrow && tok.timedOut then Faulted(h1, TimeoutError(o))
      else Running(h1.(tokens := h1.tokens[o := tok.(cancelled := true)]))
  }

  /** `CothreadTimeout.MoveNext()`, run by the hub when the token's timer
      comes due. A cancelled token does nothing. Otherwise it records that
      it fired and, if its task is still registered, leaves itself as that
      Cothread's marker and queues the task. (The check that `current` is
      this token always passes there: `call` sets it just before. A token
      in the timer list has always been started, so its target is set.) */
  function FireToken(h: Hub, o: TimeoutId): (r: Hub)
    ensures TokenOf(h, o).cancelled ==> r == h
    ensures !TokenOf(h, o).cancelled ==>
              && TokenOf(r, o) == TokenOf(h, o).(timedOut := true)
              && r == h.(tokens := h.tokens[o := TokenOf(r, o)], ready := r.ready, objs := r.objs)
              && var tgt := TokenOf(h, o).target;
                 if tgt.Some? && Registered(h, tgt.value) then
                   && r.ready == h.ready + [TaskIE(tgt.value)]
                   && r.objs == h.objs[tgt.value := h.objs[tgt.value].(timeout := Some(o), asyncResult := None)]
                 else
                   r.ready == h.ready && r.objs == h.objs
    ensures r.times == h.times && r.threads == h.threads
    ensures Evolves(h, r) && (Core(h) ==> Core(r))
  {
    var tok := TokenOf(h, o);
    if tok.cancelled then h
    else
      var h1 := h.(tokens := h.tokens[o := tok.(timedOut := true)]);
      match tok.target
      case None => h1
      case Some(u) =>
        if Registered(h1, u) then
          var h2 := SetMarker(h1, u, Some(o));
          var r := AddCothread(h2, TaskIE(u));
          EvolvesTrans(h, h2, r);
          r
        else h1
  }

  /** `CurrentCothread.IsTimeout(isThrow)` as a body effect; the answer
      itself is not observed by a scripted body. Outside a running Cothread
      the call throws. */
  function CheckTimeout(h: Hub, isThrow: bool): (r: Outcome)
    ensures CurrentCothread(h).None? ==> r == Faulted(h, NullReference)
    ensures CurrentCothread(h).Some? ==>
              var u := CurrentCothread(h).value;
              && r.h == SetMarker(h, u, None)
              && (r.Faulted? <==> isThrow && h.objs[u].timeout.Some?)
    ensures Evolves(h, r.h) && (Core(h) ==> Core(r.h))
  {
    match CurrentCothread(h)
    case None => Faulted(h, NullReference)
    case Some(u) =>
      match IsTimeout(h.objs[u], isThrow)
      case Answered(th, _) => Running(SetMarker(h, u, None))
      case Raised(th, err) => Faulted(SetMarker(h, u, None), err)
  }

  /** A cancelled token never marks anyone: once `Cancel(false)` has run,
      the token's firing changes nothing. */
  lemma CancelThenFireIsInert(h: Hub, o: TimeoutId)
    requires CurrentCothread(h).Some?
    ensures CancelToken(h, o, false).Running?
    ensures var h1 := CancelToken(h, o, false).h; FireToken(h1, o) == h1
  {
  }

  /** `Cancel(true)` on a token that has fired throws to the canceller and
      leaves the token uncancelled; the task it timed out is untouched
      apart from its marker. */
  lemma CancelAfterFiringThrows(h: Hub, o: TimeoutId)
    requires CurrentCothread(h).Some? && TokenOf(h, o).timedOut
    ensures CancelToken(h, o, true) == Faulted(CancelToken(h, o, true).h, TimeoutError(o))
    ensures !TokenOf(CancelToken(h, o, true).h, o).cancelled <==> !TokenOf(h, o).cancelled
  {
  }
}

=== FILE: tasks.dfy ===
/** The `Cothread` object and the `CothreadTimeout` token as records.
    Operations that need the hub (closing, arming, firing) are in `Sync`. */
module Tasks {
  import opened Kinds
  import opened Continuation

  /** A Cothread. Its identity is the `TaskId` it is stored under, which
      also names its flattened enumerator `IE`; `stack` is that
      enumerator's state. `hasEv` says whether the lazily created completion
      event `_ev` currently exists; the event itself is the hub's event
      `Notifier(id, evGen)`, and `evGen` moves on when `Close` drops it.
      `timeout` is the `Timeout` marker a firing token leaves behind. */
  datatype Task = Task(
    closed: bool,
    asyncResult: Option<Handle>,
    timeout: Option<TimeoutId>,
    hasEv: bool,
    evGen: nat,
    stack: seq<Frame>)

  /** `new Cothread()` wrapped around `callIEnumerable(routine, th)`. */
  function NewTask(body: seq<Step>): Task {
    Task(false, None, None, false, 0, [Script(body)])
  }

  /** The answer of `IsTimeout`: a boolean, or the exception it throws. */
  datatype Probe = Answered(th: Task, timedOut: bool) | Raised(th: Task, err: Error)

  /** `Cothread.IsTimeout(isThrowTimeout)`: reads and clears the marker;
      reports a marker as `true`, or throws `CothreadTimeoutError` for it
      when asked to throw. */
  function IsTimeout(th: Task, isThrow: bool): (r: Probe)
    ensures r.th == th.(timeout := None)
    ensures r.Raised? <==> isThrow && th.timeout.Some?
    ensures r.Raised? ==> r.err == TimeoutError(th.timeout.value)
    ensures r.Answered? ==> (r.timedOut <==> th.timeout.Some?)
  {
    var th' := th.(timeout := None);
    match th.timeout
    case None => Answered(th', false)
    case Some(t) => if isThrow then Raised(th', TimeoutError(t)) else Answered(th', true)
  }

  /** The marker is consumed: whatever the first query did, a second one
      answers `false` and throws nothing. */
  lemma IsTimeoutConsumesMarker(th: Task, first: bool, second: bool)
    ensures IsTimeout(IsTimeout(th, first).th, second) == Answered(th.(timeout := None), false)
  {
  }

  /** A `CothreadTimeout`: `Timeout` (it fired), `cancel`, and the
      enumerator `ie` of the task that was current when it was started.
      `TimeoutTime`, `startTime` and `state` only feed `PassTime` and
      `ToString`. */
  datatype Token = Token(timedOut: bool, cancelled: bool, target: Option<TaskId>)

  /** `new CothreadTimeout()`. */
  const Unstarted: Token := Token(false, false, None)
}

=== FILE: tick.dfy ===
/** `CothreadHub.Tick()`: drain the ready queue as it stood at entry, advance
    the clock, then fire every timer that has come due. */
module Ticking {
  import opened Kinds
  import opened TimerList
  import opened Continuation
  import opened Tasks
  import opened Scheduler
  import opened Flattener
  import opened Call

  /** What holds across a whole tick, when entries also leave the queues:
      objects are never forgotten, a closed Cothread stays closed, and only
      Cothreads created meanwhile can join the registry. */
  ghost predicate Persists(h: Hub, h': Hub) {
    && h.nextTask <= h'.nextTask
    && (forall u :: u in h.objs ==> u in h'.objs)
    && (forall u :: u in h.objs && u < h.nextTask && h.objs[u].closed ==> h'.objs[u].closed)
    && (forall u :: u in h'.threads ==> u in h.threads || h.nextTask <= u)
  }

  lemma PersistsTrans(a: Hub, b: Hub, c: Hub)
    requires Persists(a, b) && Persists(b, c)
    ensures Persists(a, c)
  {
  }

  lemma EvolvesPersists(h: Hub, h': Hub)
    requires Evolves(h, h')
    ensures Persists(h, h')
  {
  }

  /** Every timer entry of `h` is still in the list of `h'`. */
  ghost predicate TimersKept(h: Hub, h': Hub) {
    multiset(h.times) <= multiset(h'.times)
  }

  lemma TimersKeptTrans(a: Hub, b: Hub, c: Hub)
    requires TimersKept(a, b) && TimersKept(b, c)
    ensures TimersKept(a, c)
  {
  }

  /** The ready-queue phase: `popYield` and `call` up to `k` times, stopping
      early if the queue runs dry or an exception escapes `call`. `trace`
      lists the enumerators resumed, in order; `admitted` lists what those
      resumes appended to the ready queue, in order; `steps` lists the hub
      before each resume, then the hub reached. */
  datatype Drained = Drained(out: Outcome, trace: seq<Ref>, admitted: seq<Ref>, steps: seq<Hub>)

  /** `steps` are the hubs between resumes: the head of `steps[i]`'s ready
      queue is `trace[i]`, and popping and resuming it gives the next hub,
      or, for the last one, the outcome `out`. */
  ghost predicate DrainChain(hook: Option<Hook>, steps: seq<Hub>, trace: seq<Ref>, out: Outcome) {
    && |steps| == |trace| + 1
    && steps[|trace|] == out.h
    && (forall i :: 0 <= i < |trace| ==> DrainLink(hook, steps, trace, out, i))
  }

  /** The `i`-th resume of a drain. */
  ghost predicate DrainLink(hook: Option<Hook>, steps: seq<Hub>, trace: seq<Ref>, out: Outcome, i: nat)
    requires i < |trace| && |steps| == |trace| + 1
  {
    && steps[i].ready != [] && steps[i].ready[0] == trace[i]
    && AfterFirst(steps[i], hook) == (if i + 1 == |trace| then out else Running(steps[i + 1]))
  }

  /** A first resume from `steps[0]`, whose outcome leads into a chain over
      the rest. */
  lemma DrainChainHead(hook: Option<Hook>, d: Drained)
    requires |d.steps| == |d.trace| + 1 && d.trace != []
    requires d.steps[0].ready != [] && d.trace[0] == d.steps[0].ready[0]
    requires DrainChain(hook, d.steps[1..], d.trace[1..], d.out)
    requires AfterFirst(d.steps[0], hook) == if |d.trace| == 1 then d.out else Running(d.steps[1])
    ensures DrainChain(hook, d.steps, d.trace, d.out)
  {
    var s, t := d.steps, d.trace;
    forall i | 0 <= i < |t|
      ensures DrainLink(hook, s, t, d.out, i)
    {
      if i > 0 {
        assert DrainLink(hook, s[1..], t[1..], d.out, i - 1);
      }
    }
  }

  /** The hub once the head of the ready queue has been popped and resumed. */
  function AfterFirst(h: Hub, hook: Option<Hook>): (r: Outcome)
    requires h.ready != []
    ensures h.ready[1..] <= r.h.ready
    ensures r.h.passTime == h.passTime
    ensures TimersKept(h, r.h)
    ensures Persists(h, r.h) && (Core(h) ==> Core(r.h))
  {
    var h1 := PopYield(h).1;
    assert Core(h) ==> Core(h1);
    var o := Resume(h1, hook, h.ready[0]);
    EvolvesPersists(h1, o.h);
    PersistsTrans(h, h1, o.h);
    o
  }

  function Drain(h: Hub, hook: Option<Hook>, k: nat): (d: Drained)
    ensures |d.trace| <= k
    ensures k <= |h.ready| ==> d.trace == h.ready[..|d.trace|]
    // Entries present at the start that were not resumed keep their place
    // at the front; everything admitted meanwhile stays queued behind them.
    ensures k <= |h.ready| && d.out.Running? ==>
              |d.trace| == k && d.out.h.ready == h.ready[k..] + d.admitted
    // What the first resumed enumerator admitted heads the admissions.
    ensures k <= |h.ready| && d.out.Running? && k > 0 ==>
              AfterFirst(h, hook).h.ready[|h.ready| - 1..] <= d.admitted
    ensures d.out.Faulted? ==> d.trace != []
    // Each entry resumed was the head of the queue it was popped from.
    ensures DrainChain(hook, d.steps, d.trace, d.out) && d.steps[0] == h
    ensures d.out.h.passTime == h.passTime
    ensures TimersKept(h, d.out.h)
    ensures Persists(h, d.out.h) && (Core(h) ==> Core(d.out.h))
    decreases k, 1
  {
    if k == 0 || h.ready == [] then Drained(Running(h), [], [], [h])
    else
      var d := DrainAfter(h, hook, k, AfterFirst(h, hook));
      DrainChainHead(hook, d);
      d
  }

  /** The rest of the ready-queue phase once the head has been popped and
      resumed with outcome `o`. */
  function DrainAfter(h: Hub, hook: Option<Hook>, k: nat, o: Outcome): (d: Drained)
    requires 0 < k && h.ready != []
    requires h.ready[1..] <= o.h.ready && o.h.passTime == h.passTime && TimersKept(h, o.h)
    requires Persists(h, o.h) && (Core(h) ==> Core(o.h))
    ensures |d.trace| <= k && d.trace != [] && d.trace[0] == h.ready[0]
    // The resumes after the first form a chain from the hub `o` reached.
    ensures |d.steps| == |d.trace| + 1 && d.steps[0] == h
    ensures DrainChain(hook, d.steps[1..], d.trace[1..], d.out)
    ensures if |d.trace| == 1 then d.out == o else o == Running(d.steps[1])
    ensures k <= |h.ready| ==> d.trace == h.ready[..|d.trace|]
    ensures k <= |h.ready| && d.out.Running? ==>
              |d.trace| == k && d.out.h.ready == h.ready[k..] + d.admitted
    ensures k <= |h.ready| && d.out.Running? ==> o.h.ready[|h.ready| - 1..] <= d.admitted
    ensures d.out.h.passTime == h.passTime
    ensures TimersKept(h, d.out.h)
    ensures Persists(h, d.out.h) && (Core(h) ==> Core(d.out.h))
    decreases k, 0
  {
    var ie := h.ready[0];
    if o.Faulted? then Drained(o, [ie], [], [h, o.h])
    else
      var q := o.h.ready[|h.ready| - 1..];
      assert o.h.ready == h.ready[1..] + q;
      var d := Drain(o.h, hook, k - 1);
      PersistsTrans(h, o.h, d.out.h);
      TimersKeptTrans(h, o.h, d.out.h);
      var r := Drained(d.out, [ie] + d.trace, q + d.admitted, [h] + d.steps);
      assert r.steps[1..] == d.steps && r.trace[1..] == d.trace;
      if k <= |h.ready| then
        DrainPrefix(h, o.h, k, ie, q, d);
        r
      else r
  }

  /** The bookkeeping step of `Drain`: after the head `ie` was popped and
      resumed, leaving the rest of the entry queue followed by `q`, the
      recursive drain keeps resuming entries present at entry and keeps
      `q` at the front of what it admits. */
  lemma DrainPrefix(h: Hub, h2: Hub, k: nat, ie: Ref, q: seq<Ref>, d: Drained)
    requires 0 < k <= |h.ready| && h.ready[0] == ie
    requires h2.ready == h.ready[1..] + q
    requires |d.trace| <= k - 1
    requires d.trace == h2.ready[..|d.trace|]
    requires d.out.Running? ==> |d.trace| == k - 1 && d.out.h.ready == h2.ready[k - 1..] + d.admitted
    ensures [ie] + d.trace == h.ready[..|[ie] + d.trace|]
    ensures d.out.Running? ==> d.out.h.ready == h.ready[k..] + (q + d.admitted)
  {
    assert d.trace == h.ready[1..][..|d.trace|];
    if d.out.Running? {
      assert h2.ready[k - 1..] == h.ready[k..] + q;
    }
  }

  /** The timer phase: while the head of the timer list is due, remove it
      and `call` its enumerator. `fuel` bounds the number of entries fired;
      `exhausted` says the bound stopped the loop rather than the clock;
      `steps` lists the hub before each firing, then the hub reached. */
  datatype FireResult = FireResult(out: Outcome, fired: seq<YieldState>, exhausted: bool, steps: seq<Hub>)

  /** The hub once the head of the timer list has been removed and its
      enumerator resumed. */
  function FireFirst(h: Hub, hook: Option<Hook>): (r: Outcome)
    requires h.times != []
    ensures Evolves(h.(times := h.times[1..]), r.h)
    ensures Persists(h, r.h) && (Core(h) ==> Core(r.h))
  {
    var h1 := h.(times := h.times[1..]);
    FirePop(h, h1);
    Resume(h1, hook, h.times[0].ie)
  }

  /** `steps` are the hubs between firings: the head of `steps[i]`'s timer
      list is `fired[i]` and is due, and removing and resuming it gives the
      next hub, or, for the last one, the outcome `out`. */
  ghost predicate FireChain(hook: Option<Hook>, steps: seq<Hub>, fired: seq<YieldState>, out: Outcome) {
    && |steps| == |fired| + 1
    && steps[|fired|] == out.h
    && (forall i :: 0 <= i < |fired| ==> FireLink(hook, steps, fired, out, i))
  }

  /** The `i`-th firing of a timer phase. */
  ghost predicate FireLink(hook: Option<Hook>, steps: seq<Hub>, fired: seq<YieldState>, out: Outcome, i: nat)
    requires i < |fired| && |steps| == |fired| + 1
  {
    && steps[i].times != [] && steps[i].times[0] == fired[i]
    && fired[i].wakeTime <= steps[i].passTime
    && FireFirst(steps[i], hook) == (if i + 1 == |fired| then out else Running(steps[i + 1]))
  }

  /** A first firing from `steps[0]`, whose outcome leads into a chain over
      the rest. */
  lemma FireChainHead(hook: Option<Hook>, f: FireResult)
    requires |f.steps| == |f.fired| + 1 && f.fired != []
    requires f.steps[0].times != [] && f.fired[0] == f.steps[0].times[0]
    requires f.fired[0].wakeTime <= f.steps[0].passTime
    requires FireChain(hook, f.steps[1..], f.fired[1..], f.out)
    requires FireFirst(f.steps[0], hook) == if |f.fired| == 1 then f.out else Running(f.steps[1])
    ensures FireChain(hook, f.steps, f.fired, f.out)
  {
    var s, t := f.steps, f.fired;
    forall i | 0 <= i < |t|
      ensures FireLink(hook, s, t, f.out, i)
    {
      if i > 0 {
        assert FireLink(hook, s[1..], t[1..], f.out, i - 1);
      }
    }
  }

  function Fire(h: Hub, hook: Option<Hook>, fuel: nat): (f: FireResult)
    ensures f.out.Running? && !f.exhausted ==>
              f.out.h.times == [] || f.out.h.passTime < f.out.h.times[0].wakeTime
    ensures FiredFrom(h, f.fired, f.out.h.times)
    ensures f.exhausted ==> |f.fired| == fuel
    ensures f.out.Faulted? ==> f.fired != []
    // Each entry fired was the due head of the list it was removed from.
    ensures FireChain(hook, f.steps, f.fired, f.out) && f.steps[0] == h
    ensures f.out.h.passTime == h.passTime
    ensures h.ready <= f.out.h.ready
    ensures Persists(h, f.out.h) && (Core(h) ==> Core(f.out.h))
    decreases fuel, 2
  {
    if h.times == [] || h.passTime < h.times[0].wakeTime then FireResult(Running(h), [], false, [h])
    else if fuel == 0 then FireResult(Running(h), [], true, [h])
    else
      var f := FireAfter(h, hook, fuel, FireFirst(h, hook));
      FireChainHead(hook, f);
      f
  }

  /** The rest of the timer phase once the due head has been removed and
      its enumerator resumed with outcome `o`. */
  function FireAfter(h: Hub, hook: Option<Hook>, fuel: nat, o: Outcome): (f: FireResult)
    requires h.times != [] && h.times[0].wakeTime <= h.passTime && 0 < fuel
    requires Evolves(h.(times := h.times[1..]), o.h)
    requires Core(h) ==> Core(o.h)
    requires Persists(h, o.h)
    ensures f.out.Running? && !f.exhausted ==>
              f.out.h.times == [] || f.out.h.passTime < f.out.h.times[0].wakeTime
    ensures FiredFrom(h, f.fired, f.out.h.times)
    ensures f.exhausted ==> |f.fired| == fuel
    // The firings after the first form a chain from the hub `o` reached.
    ensures |f.steps| == |f.fired| + 1 && f.fired != [] && f.steps[0] == h
    ensures FireChain(hook, f.steps[1..], f.fired[1..], f.out)
    ensures if |f.fired| == 1 then f.out == o else o == Running(f.steps[1])
    ensures f.out.h.passTime == h.passTime
    ensures h.ready <= f.out.h.ready
    ensures Persists(h, f.out.h) && (Core(h) ==> Core(f.out.h))
    decreases fuel, 1
  {
    if o.Faulted? then
      FireStep(h, o.h, h.times[0], [], o.h.times);
      FireResult(o, [h.times[0]], false, [h, o.h])
    else
      FireRest(h, hook, fuel, o.h)
  }

  /** The rest of the timer phase once the due head has been removed and
      its enumerator resumed without an exception, reaching `oh`. */
  function FireRest(h: Hub, hook: Option<Hook>, fuel: nat, oh: Hub): (f: FireResult)
    requires h.times != [] && h.times[0].wakeTime <= h.passTime && 0 < fuel
    requires Evolves(h.(times := h.times[1..]), oh)
    requires Core(h) ==> Core(oh)
    requires Persists(h, oh)
    ensures f.out.Running? && !f.exhausted ==>
              f.out.h.times == [] || f.out.h.passTime < f.out.h.times[0].wakeTime
    ensures FiredFrom(h, f.fired, f.out.h.times)
    ensures f.exhausted ==> |f.fired| == fuel
    ensures |f.steps| == |f.fired| + 1 && f.fired != [] && f.steps[0] == h && f.steps[1] == oh
    ensures FireChain(hook, f.steps[1..], f.fired[1..], f.out)
    ensures |f.fired| == 1 ==> f.out == Running(oh)
    ensures f.out.h.passTime == h.passTime
    ensures h.ready <= f.out.h.ready
    ensures Persists(h, f.out.h) && (Core(h) ==> Core(f.out.h))
    decreases fuel, 0
  {
    var x := h.times[0];
    var f := Fire(oh, hook, fuel - 1);
    PersistsTrans(h, oh, f.out.h);
    FireStep(h, oh, x, f.fired, f.out.h.times);
    FireChainTail(hook, h, x, f);
    FireResult(f.out, [x] + f.fired, f.exhausted, [h] + f.steps)
  }

  /** The firings after a first one, as a chain from the hub it reached. */
  lemma FireChainTail(hook: Option<Hook>, h: Hub, x: YieldState, f: FireResult)
    requires FireChain(hook, f.steps, f.fired, f.out)
    ensures var r := FireResult(f.out, [x] + f.fired, f.exhausted, [h] + f.steps);
            FireChain(hook, r.steps[1..], r.fired[1..], r.out)
  {
    assert ([h] + f.steps)[1..] == f.steps && ([x] + f.fired)[1..] == f.fired;
  }

  /** Removing the head of the timer list keeps the invariant and loses
      only that entry. */
  lemma FirePop(h: Hub, h1: Hub)
    requires h.times != [] && h1 == h.(times := h.times[1..])
    ensures Core(h) ==> Core(h1)
    ensures Persists(h, h1)
    ensures forall h2 :: Persists(h1, h2) ==> Persists(h, h2)
    ensures multiset(h.times) == multiset{h.times[0]} + multiset(h1.times)
  {
    assert h.times == [h.times[0]] + h.times[1..];
  }

  /** After the due head `x` was removed and resumed, the next entry fired
      is due no earlier than `x`. */
  lemma FireStepSorted(h: Hub, h2: Hub, x: YieldState, fired: seq<YieldState>)
    requires h.times != [] && x == h.times[0] && x.wakeTime <= h.passTime
    requires Evolves(h.(times := h.times[1..]), h2)
    requires fired != [] ==> h2.times != [] && fired[0] == h2.times[0]
    requires Sorted(h2.times) ==> Sorted(fired)
    ensures Sorted(h.times) ==> Sorted([x] + fired)
  {
    if Sorted(h.times) {
      assert Sorted(h.times[1..]);
      if fired != [] {
        var y := fired[0];
        assert y in h2.times;
        if y in h.times[1..] {
          var j :| 0 <= j < |h.times[1..]| && h.times[1..][j] == y;
          assert h.times[j + 1] == y;
        }
        assert x.wakeTime <= y.wakeTime;
      }
    }
  }

  /** No timer entry is lost by removing, resuming and firing on. */
  lemma FireStepKeeps(h: Hub, h2: Hub, x: YieldState, fired: seq<YieldState>, rest: seq<YieldState>)
    requires h.times != [] && x == h.times[0]
    requires multiset(h.times[1..]) <= multiset(h2.times)
    requires multiset(h2.times) <= multiset(fired) + multiset(rest)
    ensures multiset(h.times) <= multiset([x] + fired) + multiset(rest)
  {
    assert h.times == [x] + h.times[1..];
    assert multiset([x] + fired) == multiset{x} + multiset(fired);
  }

  /** What the timer phase promises about the entries it fired, starting
      from `h`, when `rest` is the timer list it leaves: each was due, they
      come in deadline order starting with the head of the list, and every
      entry of the list was either fired or is still in `rest`. */
  ghost predicate FiredFrom(h: Hub, fired: seq<YieldState>, rest: seq<YieldState>) {
    && (forall i :: 0 <= i < |fired| ==> fired[i].wakeTime <= h.passTime)
    && (fired != [] ==> h.times != [] && fired[0] == h.times[0])
    && (Sorted(h.times) ==> Sorted(fired))
    && multiset(h.times) <= multiset(fired) + multiset(rest)
  }

  lemma FireStep(h: Hub, h2: Hub, x: YieldState, fired: seq<YieldState>, rest: seq<YieldState>)
    requires h.times != [] && x == h.times[0] && x.wakeTime <= h.passTime
    requires Evolves(h.(times := h.times[1..]), h2)
    requires FiredFrom(h2, fired, rest)
    ensures FiredFrom(h, [x] + fired, rest)
  {
    assert h2.passTime == h.passTime;
    FireStepSorted(h, h2, x, fired);
    FireStepKeeps(h, h2, x, fired, rest);
  }

  /** The result of one `Tick`: what the hub state became, the enumerators
      resumed from the ready queue and what they admitted to it, the hub
      between the two phases (the clock already advanced), the timer entries
      fired, whether the firing loop was cut short by `fuel`, and the hubs
      between the resumes of each phase. */
  datatype TickResult = TickResult(out: Outcome, drained: seq<Ref>, admitted: seq<Ref>, mid: Hub,
                                   fired: seq<YieldState>, exhausted: bool,
                                   drainSteps: seq<Hub>, fireSteps: seq<Hub>)

  /** `Tick()` with `delta` milliseconds elapsed on the stopwatch since the
      previous tick. The returned sleep hint is not modelled. */
  function Tick(h: Hub, hook: Option<Hook>, delta: nat, fuel: nat): (t: TickResult)
    ensures |t.drained| <= |h.ready| && t.drained == h.ready[..|t.drained|]
    ensures t.out.Running? || t.fired != [] ==> t.drained == h.ready
    // Between the phases: exactly what the drain admitted is queued, for
    // the next tick, and no timer entry of the start has been lost.
    ensures t.out.Running? || t.fired != [] ==>
              && t.mid.passTime == h.passTime + delta
              && t.mid.ready == t.admitted
              && TimersKept(h, t.mid)
    ensures h.ready != [] && (t.out.Running? || t.fired != []) ==>
              AfterFirst(h, hook).h.ready[|h.ready| - 1..] <= t.admitted
    // The timer phase fires from the list as the drain left it, in list
    // order, and only adds to the ready queue.
    ensures FiredFrom(t.mid, t.fired, t.out.h.times)
    ensures t.mid.ready <= t.out.h.ready
    ensures t.fired != [] ==> t.out.h.passTime == h.passTime + delta
    ensures t.out.Running? ==> t.out.h.passTime == h.passTime + delta
    ensures forall i :: 0 <= i < |t.fired| ==> t.fired[i].wakeTime <= h.passTime + delta
    ensures t.out.Running? && !t.exhausted ==>
              t.out.h.times == [] || h.passTime + delta < t.out.h.times[0].wakeTime
    ensures Core(h) ==> Core(t.out.h) && Sorted(t.fired)
    ensures Persists(h, t.out.h)
  {
    var d := Drain(h, hook, |h.ready|);
    if d.out.Faulted? then TickResult(d.out, d.trace, d.admitted, d.out.h, [], false, d.steps, [d.out.h])
    else
      assert d.trace == h.ready;
      assert d.out.h.ready == d.admitted by { assert h.ready[|h.ready|..] == []; }
      assert h.ready != [] ==> AfterFirst(h, hook).h.ready[|h.ready| - 1..] <= d.admitted;
      var h2 := d.out.h.(passTime := d.out.h.passTime + delta);
      assert Core(d.out.h) ==> Core(h2);
      var f := Fire(h2, hook, fuel);
      PersistsTrans(h, d.out.h, f.out.h);
      TickResult(f.out, d.trace, d.admitted, h2, f.fired, f.exhausted, d.steps, f.steps)
  }

  /** The drain phase of a tick, resume by resume: it pops and resumes
      from `h`, and when it completes the timer phase starts from the hub
      it reached with the clock advanced. */
  lemma TickDrainResumes(h: Hub, hook: Option<Hook>, delta: nat, fuel: nat)
    ensures var t := Tick(h, hook, delta, fuel);
            && t.drainSteps != [] && t.drainSteps[0] == h
            && (t.out.Faulted? && t.fired == [] ==> DrainChain(hook, t.drainSteps, t.drained, t.out))
            && (t.out.Running? || t.fired != [] ==>
                  var last := t.drainSteps[|t.drainSteps| - 1];
                  && DrainChain(hook, t.drainSteps, t.drained, Running(last))
                  && t.mid == last.(passTime := h.passTime + delta))
  {
    var d := Drain(h, hook, |h.ready|);
    var t := Tick(h, hook, delta, fuel);
    assert t.drainSteps == d.steps && t.drained == d.trace;
    if d.out.Running? {
      assert d.out == Running(d.steps[|d.steps| - 1]);
      assert t.mid == d.out.h.(passTime := h.passTime + delta);
    } else {
      assert t.out == d.out && t.fired == [];
    }
  }

  /** The timer phase of a tick, firing by firing, from the hub between
      the phases to the outcome. */
  lemma TickFireResumes(h: Hub, hook: Option<Hook>, delta: nat, fuel: nat)
    ensures var t := Tick(h, hook, delta, fuel);
            t.out.Running? || t.fired != [] ==>
              FireChain(hook, t.fireSteps, t.fired, t.out) && t.fireSteps[0] == t.mid
  {
  }

  /** When the timer phase stops because the head is not yet due, every
      entry that was due when it started has been fired (as many times as
      it was in the list). */
  lemma FireFiresAllDue(h: Hub, hook: Option<Hook>, fuel: nat, x: YieldState)
    requires Core(h)
    requires x in h.times && x.wakeTime <= h.passTime
    ensures var f := Fire(h, hook, fuel);
            f.out.Running? && !f.exhausted ==> multiset(h.times)[x] <= multiset(f.fired)[x]
  {
    var f := Fire(h, hook, fuel);
    if f.out.Running? && !f.exhausted {
      var rest := f.out.h.times;
      assert Sorted(rest);
      forall j | 0 <= j < |rest| ensures rest[j] != x {
        assert rest[0].wakeTime <= rest[j].wakeTime;
      }
      assert multiset(rest)[x] == 0;
    }
  }

  /** A Cothread that is closed before a tick is not registered after it:
      closing is final, and nothing a tick does revives it. */
  lemma ClosedStaysClosed(h: Hub, hook: Option<Hook>, delta: nat, fuel: nat, u: TaskId)
    requires Core(h) && u in h.objs && h.objs[u].closed
    ensures var t := Tick(h, hook, delta, fuel);
            u !in t.out.h.threads && u in t.out.h.objs && t.out.h.objs[u].closed
  {
  }
}

=== FILE: timer_list.dfy ===
/** The hub's timer list `times`: `YieldState` entries kept ordered by
    deadline. `addTimeUp` appends and then calls `List.Sort`, which is not
    stable, so only sortedness and the multiset of entries are promised;
    the lemma `SortedPermutationsAgreeOnDeadlines` shows that the order of
    deadlines is nevertheless fully determined. */
module TimerList {
  import opened Kinds

  /** A pending wake-up: the enumerator to resume and its deadline, in
      elapsed milliseconds of the hub clock. */
  datatype YieldState = YieldState(ie: Ref, wakeTime: nat)

  ghost predicate Sorted(ts: seq<YieldState>) {
    forall i, j :: 0 <= i < j < |ts| ==> ts[i].wakeTime <= ts[j].wakeTime
  }

  /** Every entry of `ts` is due no earlier than `lo`. */
  ghost predicate AllFrom(ts: seq<YieldState>, lo: nat) {
    forall i :: 0 <= i < |ts| ==> lo <= ts[i].wakeTime
  }

  function Deadlines(ts: seq<YieldState>): (ds: seq<nat>)
    ensures |ds| == |ts|
    ensures forall i :: 0 <= i < |ts| ==> ds[i] == ts[i].wakeTime
  {
    if ts == [] then [] else [ts[0].wakeTime] + Deadlines(ts[1..])
  }

  /** Places `s` into a sorted list, before the first later deadline. */
  function Insert(ts: seq<YieldState>, s: YieldState): (r: seq<YieldState>)
    requires Sorted(ts)
    ensures Sorted(r)
    ensures multiset(r) == multiset(ts) + multiset{s}
    ensures r[0] == s || (ts != [] && r[0] == ts[0])
  {
    if ts == [] then [s]
    else if s.wakeTime <= ts[0].wakeTime then [s] + ts
    else
      var tail := Insert(ts[1..], s);
      assert ts == [ts[0]] + ts[1..];
      assert ts[0].wakeTime <= tail[0].wakeTime;
      [ts[0]] + tail
  }

  /** `times.Sort(_sortTimes)`: an ordering of the entries by `WakeTime`.
      Equal deadlines come out in some order; none is promised. */
  function SortByWake(ts: seq<YieldState>): (r: seq<YieldState>)
    ensures Sorted(r)
    ensures multiset(r) == multiset(ts)
  {
    if ts == [] then []
    else
      assert ts == ts[..|ts| - 1] + [ts[|ts| - 1]];
      Insert(SortByWake(ts[..|ts| - 1]), ts[|ts| - 1])
  }

  lemma {:induction false} DeadlinesKeepMultiset(a: seq<YieldState>, b: seq<YieldState>)
    requires multiset(a) == multiset(b)
    ensures multiset(Deadlines(a)) == multiset(Deadlines(b))
    decreases |a|
  {
    if a != [] {
      var x := a[0];
      assert x in multiset(b);
      var j :| 0 <= j < |b| && b[j] == x;
      var b' := RemoveAt(b, j);
      RemoveAtMultiset(a, 0);
      RemoveAtMultiset(b, j);
      assert RemoveAt(a, 0) == a[1..];
      DeadlinesKeepMultiset(a[1..], b');
      RemoveAtDeadlines(a, 0);
      RemoveAtDeadlines(b, j);
    }
  }

  function RemoveAt(s: seq<YieldState>, j: nat): seq<YieldState>
    requires j < |s|
  {
    s[..j] + s[j + 1..]
  }

  lemma RemoveAtMultiset(s: seq<YieldState>, j: nat)
    requires j < |s|
    ensures multiset(RemoveAt(s, j)) == multiset(s) - multiset{s[j]}
  {
    assert s == s[..j] + [s[j]] + s[j + 1..];
  }

  lemma RemoveAtDeadlines(s: seq<YieldState>, j: nat)
    requires j < |s|
    ensures multiset(Deadlines(s)) == multiset(Deadlines(RemoveAt(s, j))) + multiset{s[j].wakeTime}
  {
    var p, q := s[..j], s[j + 1..];
    assert s == p + ([s[j]] + q);
    DeadlinesAppend(p, [s[j]] + q);
    DeadlinesAppend([s[j]], q);
    DeadlinesAppend(p, q);
    var dp, dq := Deadlines(p), Deadlines(q);
    assert Deadlines([s[j]]) == [s[j].wakeTime];
    assert Deadlines(s) == dp + ([s[j].wakeTime] + dq);
    assert Deadlines(RemoveAt(s, j)) == dp + dq;
  }

  lemma {:induction false} DeadlinesAppend(a: seq<YieldState>, b: seq<YieldState>)
    ensures Deadlines(a + b) == Deadlines(a) + Deadlines(b)
  {
    assert |Deadlines(a + b)| == |Deadlines(a) + Deadlines(b)|;
    forall i | 0 <= i < |a + b| ensures Deadlines(a + b)[i] == (Deadlines(a) + Deadlines(b))[i] {
      if i < |a| { assert (a + b)[i] == a[i]; } else { assert (a + b)[i] == b[i - |a|]; }
    }
  }

  /** Two sorted sequences of numbers holding the same multiset are equal. */
  lemma {:induction false} SortedNumbersUnique(a: seq<nat>, b: seq<nat>)
    requires forall i, j :: 0 <= i < j < |a| ==> a[i] <= a[j]
    requires forall i, j :: 0 <= i < j < |b| ==> b[i] <= b[j]
    requires multiset(a) == multiset(b)
    ensures a == b
    decreases |a|
  {
    if a == [] {
      assert |b| == |multiset(b)| == 0;
    } else {
      assert |b| == |multiset(b)| == |multiset(a)| == |a|;
      assert a[0] in multiset(b);
      assert b[0] in multiset(a);
      assert a[0] <= b[0] by {
        var k :| 0 <= k < |a| && a[k] == b[0];
      }
      assert b[0] <= a[0] by {
        var k :| 0 <= k < |b| && b[k] == a[0];
      }
      assert a == [a[0]] + a[1..];
      assert b == [b[0]] + b[1..];
      assert multiset(a) == multiset{a[0]} + multiset(a[1..]);
      assert multiset(b) == multiset{b[0]} + multiset(b[1..]);
      assert multiset(a[1..]) == multiset(a) - multiset{a[0]};
      assert multiset(b[1..]) == multiset(b) - multiset{b[0]};
      SortedNumbersUnique(a[1..], b[1..]);
    }
  }

  /** Whatever order an unstable sort gives entries with equal deadlines,
      the sequence of deadlines is the same: the order in which timers come
      due does not depend on the tie-break. */
  lemma SortedPermutationsAgreeOnDeadlines(a: seq<YieldState>, b: seq<YieldState>)
    requires Sorted(a) && Sorted(b)
    requires multiset(a) == multiset(b)
    ensures Deadlines(a) == Deadlines(b)
  {
    DeadlinesKeepMultiset(a, b);
    SortedNumbersUnique(Deadlines(a), Deadlines(b));
  }
}

=== FILE: wraparound.dfy ===
/** The hub clock as the source declares it: `passTime` and
    `YieldState.WakeTime` are `uint`, so `passTime + time` and
    `passTime += elapsed` wrap around at 2^32 milliseconds (about 49.7
    days). The rest of the model keeps the clock unbounded, which is the
    evidently intended behaviour; this module shows what the wrap does. */
module WrapAround {
  import opened Kinds
  import opened TimerList
  import opened Scheduler

  const Modulus: int := 0x1_0000_0000

  newtype U32 = x: int | 0 <= x < 0x1_0000_0000

  /** Unsigned 32-bit addition in an unchecked context. */
  function AddU32(a: U32, b: U32): (r: U32)
    ensures a as int + b as int < Modulus ==> r as int == a as int + b as int
    ensures a as int + b as int >= Modulus ==> r as int == a as int + b as int - Modulus
  {
    ((a as int + b as int) % Modulus) as U32
  }

  /** `new YieldState(ie, passTime + time)` as written. */
  function WakeTimeAsWritten(passTime: U32, time: U32): (w: U32)
    ensures passTime as int + time as int < Modulus ==> w as int == passTime as int + time as int
    ensures passTime as int + time as int >= Modulus ==> w < passTime
  {
    AddU32(passTime, time)
  }

  /** The `Tick` loop's test `times[0].WakeTime <= passTime`. */
  predicate DueAsWritten(wake: U32, passTime: U32) {
    wake <= passTime
  }

  /** A timer armed for 100 ms ten milliseconds before the clock wraps is
      due at once: its deadline wrapped to 90. */
  lemma WrappedDeadlineFiresEarly()
    ensures var p: U32 := (Modulus - 10) as U32;
            && WakeTimeAsWritten(p, 100) == 90
            && DueAsWritten(WakeTimeAsWritten(p, 100), p)
  {
  }

  /** A timer armed for 5 ms just before the clock wraps is missed when the
      clock wraps past it: 20 ms later it is still not due, and stays so for
      another 2^32 ms. */
  lemma WrappedClockStallsTimer()
    ensures var p: U32 := (Modulus - 10) as U32;
            var w := WakeTimeAsWritten(p, 5);
            var later := AddU32(p, 20);
            && w as int == Modulus - 5
            && later == 10
            && !DueAsWritten(w, later)
  {
  }

  /** With the unbounded clock the model uses, an entry armed for `time`
      ms is in the timer list and is due exactly when at least `time` ms
      have elapsed. */
  lemma TimerDueExactlyAfterItsDelay(h: Hub, time: nat, ie: Ref, elapsed: nat)
    ensures var x := YieldState(ie, h.passTime + time);
            && x in AddTimeUp(h, time, ie).times
            && (x.wakeTime <= h.passTime + elapsed <==> time <= elapsed)
  {
    var x := YieldState(ie, h.passTime + time);
    assert x in multiset(AddTimeUp(h, time, ie).times);
  }
}
